=== FILE: README.md ===
# Insomnia-2 room layout, modelled in Dafny

The layout generator of Insomnia-2 is a function, `genMap`, in `server.js`; `generator.js` holds an earlier copy of its first half. It works in five stages:

1. **Separate.** It draws `limit` candidate rectangles and builds their intersection graph. A greedy loop takes one room at a time off the graph and pushes it on a stack. The loop picks the front of the list of `[count, id]` pairs after `sort()` and `reverse()`. That sort compares the pairs as strings, so the front is the room whose count is largest as text ("9,…" comes before "10,…"), not always the most-intersected one. The rooms are then put back one by one, in stack order. Each one is steered away from the centroid of the rooms already placed and the room itself, until it overlaps none of the placed rooms.
2. **Translate.** The layout is moved into non-negative space.
3. **Choose principal rooms.** The rooms are ranked by sorting `[area, index]` pairs, again as strings and then reversed, so an area of 900 ranks above one of 1000. The anchors of the first `count` rooms in that ranking become the points of a Delaunay triangulation.
4. **Build the spanning tree.** A minimum spanning tree is grown by Prim's algorithm over the triangulation's edges. The weights are Euclidean distances, with 1000000000 meaning "no edge".
5. **Rasterise.** Every room becomes a block of 30-unit grid squares. The principal blocks are painted into a 150 by 150 tile map. The design then connects each tree edge whose two blocks face each other across a horizontal gap with a corridor, and paints every further block the corridor overlaps. As written, the corridor block has its rows upside down, so adding it paints no cell. The overlap test is inverted on the rows as well, so the blocks it absorbs are those whose rows lie strictly inside the corridor's (see "## Findings"). The model proves these facts about the code as written, and paints what the design intends.

The model follows the code module by module:

| module | contents |
|---|---|
| `Wrappers` | `Option`, `Result` and the ways `genMap` can stop |
| `Counting` | cardinality facts about distinct sequences |
| `Geometry` | `Point`, `Rectangle`, `normalize` and `intersect` |
| `Separation` | the intersection graph and the removal loop, as written and corrected |
| `Placement` | steering and translation |
| `Selection` | the guard, and choosing the principal rooms |
| `Spanning` | the weight matrix and Prim's algorithm |
| `TileMap` | the `Block` and `Map` classes |
| `Raster` | block conversion, `getSign`, `blockOverlap` and the corridor, as written and corrected |
| `Hallways` | the painting loops |
| `Generator` | `genMap` from end to end |

The functions of `generator.js` (`normalize`, `intersect`, the graph, the removal loop and steering) are the same statements as the corresponding parts of `server.js`. The same members model both, and the table below cites whichever file states a property most directly.

The candidate rooms, which the source draws at random, are an input. The square root, the triangulation, the degree sort and the area sort are parameters. The model assumes nothing of the square root. `Triangulates` constrains the triangulation, and `Ranks` constrains the area sort. The degree sort appears twice. In the loop as written it is a rearrangement constrained by `SortsRemovedLast`. In the corrected loop it is a pick of the front entry, constrained by `PicksLive`.

## Model

| member | source | states |
|---|---|---|
| `Geometry.Normalize` | server.js:36-42 | the zero vector maps to itself; any other vector, multiplied back by its length, gives the input |
| `Geometry.Intersect` | server.js:53-63 | the centre test holds exactly when the open extents of the two rooms overlap on both axes |
| `Geometry.IntersectSymmetric` | generator.js:32-42 | the test gives the same answer with its arguments swapped |
| `Geometry.TouchingDoesNotIntersect` | server.js:57-58 | rooms whose centre distance on an axis equals the half-extent sum (touching edges) do not intersect |
| `Geometry.IntersectTranslation` | server.js:53-63 | moving both rooms by the same vector leaves the answer unchanged, which the anchor shift relies on |
| `Geometry.IntersectSelf` | generator.js:32-42 | a room of positive width and height intersects itself |
| `Geometry.NormalizeZero` | generator.js:17-23 | normalize of (0, 0) is (0, 0), whatever the square root returns |
| `Separation.NeighboursBelow` | server.js:135-146 | the neighbour list of a room holds exactly the other rooms it intersects, in increasing order |
| `Separation.NeighbourGraphWellFormed` | generator.js:76-87 | the adjacency lists are symmetric, have no self-loops and are increasing |
| `Separation.ScanPairsFrom` | server.js:136-145 | one pass of the outer loop records every pair (i, j) with j > i on both sides exactly when the rooms intersect. The lists stay increasing and every count stays the length of its list |
| `Separation.BuildGraph` | server.js:129-146 | the nested pair loop yields, for every room, exactly its sorted conflict list, and a count equal to that list's length |
| `Separation.DecrementAllAt` | server.js:158-163 | the for-in loop lowers by one every non-removed entry at a position named in the neighbour list, and only those |
| `Separation.RemovalPass` | server.js:153-163 | a pass marks the front entry removed, never revives a removed entry and never changes an id |
| `Separation.PassKeepsInv` | server.js:149-164 | a pass plus the next sort keeps the loop invariant and lowers the number of live entries, so the loop ends |
| `Separation.RemoveAsWritten` | server.js:148-164 | the loop as written ends, builds a stack of distinct room ids (at most one per room) and leaves every count at -1; an empty room list is an error |
| `Separation.RemovalLoop` | generator.js:89-105 | from the first sorted list on, the loop ends with every entry removed and the stack distinct |
| `Separation.LostRoomSecondPass` | server.js:158-162 | with three rooms, the second pass turns room 2's count into -1 although room 2 was never at the front |
| `Separation.DecrementNeighbours` | server.js:158-163 | the corrected decrement lowers the count of each live neighbour, addressed by room id |
| `Separation.RemoveAll` | server.js:148-164 | the corrected loop fails only on an empty room list; otherwise the stack is a permutation of all room ids |
| `Placement.Moved` | server.js:176-178 | a moved room keeps its size, and zero steps leave it in place |
| `Placement.MovedOffset` | server.js:176-178 | after k steps the anchor has moved by k times the step on each axis |
| `Placement.MovedByOrigin` | generator.js:117-119 | steps of zero length never move the room |
| `Placement.Collides` | server.js:179-185 | the inner loop reports a hit exactly when the moved room meets some room placed before it |
| `Placement.Steer` | server.js:176-189 | on exit the room has taken the fewest steps (at least one) after which it meets no placed room; running out of fuel means every step up to the bound still hits |
| `Placement.CentroidSingle` | server.js:169-173 | the centroid of one room is its centre |
| `Placement.FirstStepIsZero` | generator.js:107-116 | the first room's direction is the zero vector |
| `Placement.CentroidSum` | server.js:169-173 | the loop adds each centre divided by the count; `Placement.CentroidSumIsMean` states what the sum is |
| `Placement.CentroidSumIsMean` | server.js:169-173 | dividing each centre by the count and summing gives the sum of the centres divided by the count |
| `Placement.Centroid` | server.js:168-173 | the centroid of a non-empty list is the mean of the rooms' centres |
| `Placement.SteerStep` | server.js:174-175 | the step is increment times the normalized vector from the centroid of the placed rooms and this one to this room's centre; `Placement.FirstStepIsZero` gives its value for the first room |
| `Placement.PlaceOne` | server.js:167-191 | the result is the room moved by its own step the fewest times, at least once, that leave it clear of every placed room: only the anchor changes. Running out of fuel means every step up to the bound still hits. The first room stays exactly where it was |
| `Placement.PlaceRooms` | server.js:165-192 | when the outer loop finishes, no two placed rooms intersect. Room k is the k-th stacked candidate, steered by its own step clear of the rooms placed before it, with its size kept. The first is unmoved. It fails only when, after placing some prefix of the stack without overlaps, the next candidate still hits a placed room after each of its first fuel steps |
| `Placement.AppendKeepsNoOverlap` | generator.js:127-132 | appending a room that meets no placed room keeps the layout free of overlaps |
| `Placement.LowX` | server.js:193-202 | the running minimum is at most 0 and at most every anchor x, and is 0 or some anchor's x |
| `Placement.LowY` | server.js:193-202 | the running minimum is at most 0 and at most every anchor y, and is 0 or some anchor's y |
| `Placement.Translate` | server.js:193-206 | afterwards every anchor has x >= 0 and y >= 0 and every size is unchanged. The difference between any two anchors is unchanged. An axis that had a negative anchor has an anchor at exactly 0, and an axis with no negative anchor is not moved, since both minima start at 0 |
| `Placement.TranslateKeepsNoOverlap` | server.js:203-206 | translation keeps a layout free of overlaps |
| `Selection.CheckLimit` | server.js:113-115 | the guard fails exactly when limit < count |
| `Selection.SelectPrincipal` | server.js:211-215 | point i is the anchor, not the centre, of the room ranked i; asking for more rooms than were placed is an error |
| `Selection.PrincipalPointsDistinct` | server.js:211-216 | from a layout without overlaps of rooms of positive size, the triangulation gets no duplicate point |
| `Spanning.Dist` | server.js:226-228 | the Euclidean distance with the square root as a parameter; `Spanning.DistSymmetric` states its symmetry |
| `Spanning.DistSymmetric` | server.js:226-228 | dist(a, b) == dist(b, a) |
| `Spanning.AddTriangle` | server.js:230-239 | one triangle's six writes set exactly the entries between two different corners to their distance |
| `Spanning.BuildWeights` | server.js:229-240 | an entry is the distance between its points if some triangle has both as corners, and the sentinel otherwise |
| `Spanning.WeightsSymmetric` | server.js:234-239 | the matrix is symmetric |
| `Spanning.PickNext` | server.js:248-257 | the node picked is an unselected one of least key, ties going to the lowest index; -1 only when all are selected |
| `Spanning.Relax` | server.js:267-272 | a key drops to the new node's edge weight exactly when that weight is smaller, and the parent is then that node |
| `Spanning.Prim` | server.js:241-273 | on success node 0 is selected first and has no entry; every later node has one entry, naming an earlier node over a finite edge that is lightest across its cut. On failure some selected set has only sentinel edges leaving it |
| `Spanning.PrimCut` | server.js:258-260 | when the error is raised, some node but not all is selected, and every edge leaving the selected nodes has sentinel weight |
| `Spanning.PrimCutConverse` | server.js:258-260 | conversely, once some node is selected and every edge leaving the selected nodes has sentinel weight, every unselected key is the sentinel, so the next pick raises the error |
| `Spanning.EntryCounts` | server.js:261-266 | the root has no entry and every other node exactly one |
| `Spanning.TreeEdgeCount` | server.js:261-266 | a tree over n nodes records n - 1 edges |
| `Spanning.PathToRoot` | server.js:262-265 | following the entries from any node reaches the root through strictly earlier-selected nodes |
| `Spanning.PathToRootAcyclic` | server.js:262-265 | the nodes on that path are pairwise different: the recorded edges have no cycle |
| `TileMap.BlockCenter` | server.js:66-72 | the block's centre is the midpoint of its corners, rounded down |
| `TileMap.EmptyGrid` | server.js:75-80 | a new map is the right size, all zero, and has no blocks |
| `TileMap.At` | server.js:82-84 | reads cell (x, y) of the map; `TileMap.EmptyGrid` and `TileMap.Update` state what it returns |
| `TileMap.IndexInjective` | server.js:82-88 | different cells of the grid use different array positions |
| `TileMap.Update` | server.js:86-88 | at(x, y) after update(x, y, v) is v, and no other cell changes |
| `TileMap.PaintColumn` | server.js:92-94 | the inner loop sets one column of the block to 1, continuing the painting of the previous columns |
| `TileMap.AddBlock` | server.js:90-97 | the block is appended once; exactly its cells become 1 and every other cell is unchanged; a block with tl > br on an axis changes no cell |
| `Raster.ToBlock` | server.js:279-284 | a block's top-left corner is the first grid line at or after the anchor; its bottom-right is the last grid line at or before the far edge |
| `Raster.ToBlockPaints` | server.js:281-282 | a room at least 30 units wide and high gives a block that covers cells |
| `Raster.Sign` | server.js:290-294 | -1, 1 and 0 exactly for negative, positive and zero arguments |
| `Raster.BlockOverlapAsWritten` | server.js:295-303 | blockOverlap as written, with the y test inverted; the lemmas below state what it accepts |
| `Raster.BlockOverlap` | server.js:295-303 | blockOverlap with the y test mirroring the x test; `Raster.BlockOverlapMeaning` states what it accepts |
| `Raster.BlockOverlapSymmetric` | server.js:295-303 | both the as-written and the corrected test give the same answer with their arguments swapped, for every pair of blocks |
| `Raster.BlockOverlapAsWrittenNeverHolds` | server.js:295-303 | as written, blockOverlap is false for every pair of blocks with tl.y <= br.y |
| `Raster.BlockOverlapMeaning` | server.js:295-303 | for blocks two cells across, the corrected test holds exactly when they share a two by two square of cells |
| `Raster.HorizontalCondition` | server.js:311-312 | the corridor test on the signs and sizes of the two vertical differences; `Raster.HorizontalConditionOverlap` states its meaning |
| `Raster.HorizontalConditionOverlap` | server.js:311-312 | for blocks with tl.y <= br.y, the corridor condition holds exactly when the blocks' row ranges overlap with at least two rows to spare at each end |
| `Raster.HorizontalCorridorAsWritten` | server.js:313-339 | the corridor block as written; `Raster.CorridorAsWrittenPaintsNothing` states its shape |
| `Raster.CorridorAsWrittenPaintsNothing` | server.js:318-341 | whenever the condition holds, the corridor as written has tl.y > br.y, so adding it paints nothing |
| `Raster.HorizontalCorridor` | server.js:313-339 | the corridor block with its rows in order; `Raster.CorridorShape` states its shape |
| `Raster.CorridorShape` | server.js:318-341 | the corrected corridor is at least three rows high and runs from lx + 1 to rx - 1; it lies strictly between the blocks when b1 is left of b2, and within their combined rows |
| `Raster.AbsorbTestAsWritten` | server.js:345-351 | as written, the absorb test of the inverted corridor accepts a block with tl.y <= br.y exactly when the corrected corridor overlaps it and the block's rows lie strictly inside the corridor's rows |
| `Raster.AbsorbAsWrittenExample` | server.js:345-351 | blocks (0,0)-(3,10) and (20,0)-(23,10) meet the condition; their as-written corridor is (4,10)-(19,0), and the as-written test accepts the block (8,3)-(12,6) |
| `Raster.CorridorFits` | server.js:343 | a corridor between two blocks of the map lies in the map |
| `Hallways.PaintPrincipal` | server.js:286-289 | exactly the principal rooms are marked; their blocks are painted and appended in rank order; no cell outside them changes |
| `Hallways.Absorb` | server.js:345-351 | a block ends up marked exactly when it was marked or the corridor overlaps it; each newly marked block is painted; no cell outside those blocks changes |
| `Hallways.ConnectEdge` | server.js:311-351 | if the condition holds, the corridor is painted and every block it overlaps is marked; if it does not, nothing changes; no painted cell is cleared |
| `Hallways.EdgeEndsAsWritten` | server.js:307-309 | the edge's ends as written: b1 read by rank, b2 through the ranking; `Hallways.EdgeEndsExample` shows the consequence |
| `Hallways.EdgeEnds` | server.js:307-309 | both ends read through the ranking; `Hallways.EdgeEndsDifferentRooms` states what it gives |
| `Hallways.EdgeEndsExample` | server.js:307-309 | with rank order the reverse of room order, both as-written ends of an edge are the same block and its corridor is empty; the corrected ends are the two rooms |
| `Hallways.EdgeEndsDifferentRooms` | server.js:307-309 | with the corrected ends, an edge between two ranks joins two different rooms |
| `Hallways.SelfCorridorEmpty` | server.js:319-325 | a corridor from a block to itself covers no cell |
| `Hallways.ConnectRank` | server.js:306-354 | after the inner loop every edge of that rank is done, and so is every earlier rank's |
| `Hallways.ConnectRooms` | server.js:305-355 | for every tree edge whose blocks face each other horizontally, the corridor is painted and every block it overlaps is marked and painted; painted cells and marks are never cleared |
| `Generator.Separate` | server.js:127-207 | it fails with the empty-list error exactly when there are no rooms. Its only other failure is `NoConvergence`, which means that for some stacking a candidate stays stuck against the rooms placed before it for fuel steps. Otherwise every candidate is placed, exactly once, with its size, without overlaps, at non-negative coordinates. The result is the translation of a placement in which each room is its stacked candidate, steered by its own step the fewest times that clear the rooms placed before it |
| `Generator.PrincipalTree` | server.js:211-273 | it fails only with the spanning-tree error. That happens only when, under those weights, some but not all anchors are selected and every edge leaving them has the sentinel weight (server.js:258-260). Otherwise the tree spans the anchors of the first count ranked rooms: its weights are the distances between corners of a common triangle of their triangulation, and each edge is a lightest one leaving the nodes selected before it |
| `Generator.SpanningTreeShape` | server.js:261-266 | every entry of a complete tree names a rank below count |
| `Generator.Render` | server.js:277-355 | it stops with `OffGrid` exactly when some room's block has a corner off the 150 by 150 map. Otherwise all principal rooms are marked, every marked block is painted, and every tree edge's corridor is done |
| `Generator.GenMap` | server.js:112-356 | the guard fails exactly when limit < count; the ranking is never read past its end. Each other failure is characterised. `NoConvergence` means steering got stuck. `NoMst` means some separated layout's principal anchors have only sentinel edges across a cut. `OffGrid` means some separated layout has a block off the map. On success the layout has no overlaps and non-negative anchors, and its rooms are the translation of the steered placement of the candidates in stack order. The area ranking is the sort applied to those rooms. The tree spans the principal anchors under the weights of their triangulation, each of its edges is a lightest one leaving the nodes selected before it, and its entries are ranks below count. All principal blocks and horizontal corridors are painted |

## Left out

- The HTTP server, the routes and the `fs` import are not modelled: they are I/O.
- The random number generators and `circlePoint` are not modelled. The candidate rooms are an input.
- The Delaunay triangulation is a foreign library. The triangle index list is an input, assumed to hold corner triples of the given points.
- `Math.sqrt` is an uninterpreted parameter. Floating-point rounding is not modelled: coordinates are exact reals.
- Geometry.Normalize: the result is not shown to have unit length, because the square root is uninterpreted.
- Placement.Steer: it is bounded by a fuel count instead of looping until it succeeds. A zero direction for a room that overlaps a placed room makes the source loop forever. The model reports `NoConvergence` instead.
- Both sorts compare entries as strings, and that order is not modelled.
  - The degree sort is any rearrangement that puts removed (-1) entries last, which the string order guarantees.
  - The area sort is any ranking of the rooms, so the principal rooms are not shown to be the largest.
- Selection.SelectPrincipal: the points are not shown to come from the largest rooms, because the area order is abstract.
- Separation.RemoveAll: it picks a live room through a parameter rather than re-sorting. With the decrement addressed by room id, the position of an entry in the sorted list no longer matters. As a result, the stack is not shown to follow the exact string order of degrees.
- Spanning.Prim: the tree is not shown to be of minimum total weight. What is proved is the cut property: each edge is a lightest one leaving the nodes selected before it.
- The source does no bounds checks on the map (server.js:117). `at` and `update` take in-bounds cells as a precondition.
- Generator.Render: it stops with `OffGrid` as soon as any room's block has a corner off the 150 by 150 map, even a block that is never painted, or one that covers no cell. The source goes on. It writes only the blocks it paints, and an off-map cell lands at another position of the flat array or past its end. That aliasing is not modelled.
- `genMap` in the source returns nothing. The model returns the computed layout so that its properties can be stated.
- The corridor for a vertical gap and the combined corridor are not modelled. The source only marks the place for them with a comment.
- The top-level calls `genMap(20, ...)` and `genMap(50, ...)` are not modelled. `generator.js` also allocates a 1500 by 1500 map that it never uses, which is not modelled.

## Findings

| source | as written | input that shows it | evidently intended | confidence | as-written member | corrected member |
|---|---|---|---|---|---|---|
| server.js:158-162 | the neighbours of the removed room are decremented at `deg[id]`, using a room id as a position in the sorted list (also generator.js:99-104) | rooms (0,0,10,10), (5,5,10,10), (100,100,10,10): on the second pass, position 1 holds room 2, which drops to -1 without being stacked, so it is never placed | decrement the entry whose id is the neighbour's | high, not executed | `Separation.LostRoomSecondPass` | `Separation.RemoveAll` |
| server.js:299 | the y test rejects when `b1.tl.y <= b2.br.y` or `b2.tl.y <= b1.br.y`, the opposite sense of the x test | any two blocks with tl.y <= br.y, e.g. two copies of (0,0)-(3,3): the result is false. The one caller (line 347) passes the corridor of lines 326-339, whose rows are inverted too, so the two errors partly cancel. As written, the loop absorbs exactly the overlapped blocks whose rows lie strictly inside the corridor's (`Raster.AbsorbTestAsWritten`). For blocks (0,0)-(3,10) and (20,0)-(23,10) it absorbs (8,3)-(12,6) (`Raster.AbsorbAsWrittenExample`) | `>=` in both halves, mirroring line 296 | high, not executed | `Raster.BlockOverlapAsWrittenNeverHolds` | `Raster.BlockOverlapMeaning` |
| server.js:326-339 | the corridor's tl.y is the larger and br.y the smaller of the two facing edges | blocks (0,0)-(3,3) and (10,0)-(13,3): the corridor is (4,3)-(9,0), which covers no cell | tl.y the smaller, br.y the larger | high, not executed | `Raster.CorridorAsWrittenPaintsNothing` | `Raster.CorridorShape` |
| server.js:307 | `b1 = unusedBlocks[i]`, with i a rank, while `b2` goes through `area` | blocks (0,0)-(3,3) and (10,0)-(13,3), ranking [1, 0], tree edge from rank 1 to rank 0: both ends are block 1 | `unusedBlocks[area[i][1]]`, as at line 309 | high, not executed | `Hallways.EdgeEndsExample` | `Hallways.ConnectRooms` |

The rest of the model uses the corrected forms:
- `Generator.Separate` uses `Separation.RemoveAll`.
- `Hallways.ConnectRooms` uses the corrected ends, corridor and overlap test.

=== FILE: counting.dfy ===
/** Cardinality facts about sets built from sequences and integer ranges. */
module Counting {

  /** The naturals below n. */
  function Range(n: nat): (r: set<nat>)
    ensures forall k: nat :: k in r <==> k < n
  {
    if n == 0 then {} else Range(n - 1) + {n - 1}
  }

  predicate Distinct<T(==)>(s: seq<T>) {
    forall i, j :: 0 <= i < j < |s| ==> s[i] != s[j]
  }

  /** The tail of a distinct sequence is distinct and misses the head. */
  lemma DistinctTail<T>(s: seq<T>)
    requires Distinct(s) && |s| > 0
    ensures Distinct(s[1..]) && s[0] !in s[1..]
  {
    forall i, j | 0 <= i < j < |s| - 1
      ensures s[1..][i] != s[1..][j]
    {
      assert s[1..][i] == s[i + 1] && s[1..][j] == s[j + 1];
    }
    forall k | 0 <= k < |s| - 1
      ensures s[1..][k] != s[0]
    {
      assert s[1..][k] == s[k + 1];
    }
  }

  function Elems<T(==)>(s: seq<T>): set<T> {
    set x | x in s
  }

  lemma {:induction false} RangeCard(n: nat)
    ensures |Range(n)| == n
  {
    if n > 0 {
      var r := Range(n - 1);
      RangeCard(n - 1);
      assert n - 1 !in r;
      assert |r + {n - 1}| == |r| + 1;
    }
  }

  lemma {:induction false} ElemsCard<T>(s: seq<T>)
    ensures |Elems(s)| <= |s|
    ensures Distinct(s) ==> |Elems(s)| == |s|
  {
    if |s| > 0 {
      var init := s[..|s| - 1];
      ElemsCard(init);
      assert s == init + [s[|s| - 1]];
      assert Elems(s) == Elems(init) + {s[|s| - 1]};
      if Distinct(s) {
        assert Distinct(init);
        assert s[|s| - 1] !in Elems(init);
      }
    }
  }

  lemma SubsetCard<T>(a: set<T>, b: set<T>)
    requires a <= b
    ensures |a| <= |b|
  {
    assert b == a + (b - a);
  }

  /** A repetition-free sequence of naturals below n has at most n elements,
      and exactly n when it holds every natural below n. */
  lemma DistinctBelow(s: seq<nat>, n: nat)
    requires Distinct(s)
    requires forall i :: 0 <= i < |s| ==> s[i] < n
    ensures |s| <= n
    ensures (forall k :: 0 <= k < n ==> k in s) ==> |s| == n
  {
    ElemsCard(s);
    RangeCard(n);
    assert Elems(s) <= Range(n);
    SubsetCard(Elems(s), Range(n));
    if forall k :: 0 <= k < n ==> k in s {
      assert Range(n) <= Elems(s);
      SubsetCard(Range(n), Elems(s));
    }
  }

  /** A repetition-free sequence of n naturals below n holds each of them. */
  lemma DistinctCovers(s: seq<nat>, n: nat)
    requires Distinct(s) && |s| == n
    requires forall i :: 0 <= i < |s| ==> s[i] < n
    ensures forall k :: 0 <= k < n ==> k in s
  {
    ElemsCard(s);
    RangeCard(n);
    assert Elems(s) <= Range(n);
    var missing := Range(n) - Elems(s);
    assert Range(n) == Elems(s) + missing;
    assert |missing| == 0;
    forall k | 0 <= k < n
      ensures k in s
    {
      assert k in Range(n);
      assert k !in missing;
    }
  }

  /** The position of the first occurrence of x in s. */
  function IndexOf<T(==)>(s: seq<T>, x: T): (k: nat)
    requires x in s
    ensures k < |s| && s[k] == x
    ensures forall i :: 0 <= i < k ==> s[i] != x
  {
    if s[0] == x then 0 else 1 + IndexOf(s[1..], x)
  }
}

=== FILE: generator.dfy ===
/** genMap from end to end: the guard, separation of the candidate rooms,
    translation, the choice of principal rooms, the spanning tree over
    their anchors and the painting of the tile map. The random candidates,
    the area sort, the triangulation, the square root and the removal
    order come in as parameters. */
module Generator {
  import opened Wrappers
  import opened Counting
  import opened Geometry
  import opened Separation
  import opened Placement
  import opened Selection
  import opened Spanning
  import opened TileMap
  import opened Raster
  import opened Hallways

  /** The side of the tile map genMap creates. */
  const MapSide: nat := 150

  /** The separated rooms and, for each, the candidate it came from. */
  datatype Separated = Separated(rooms: seq<Rect>, order: seq<nat>)

  /** Everything genMap computes: the separated rooms, the area ranking,
      the tree over the principal ranks and the painted map with its
      added marks. */
  datatype Layout = Layout(rooms: seq<Rect>, order: seq<nat>, area: seq<nat>,
                           mst: seq<seq<nat>>, grid: Grid, added: seq<bool>)

  /** order is a permutation of the indices below n. */
  predicate IsPermutation(order: seq<nat>, n: nat) {
    |order| == n && Distinct(order) && forall k :: 0 <= k < n ==> order[k] < n
  }

  /** out is the layout separation makes of rooms when the stack is order:
      the translation of a placement in which each room is its stacked
      candidate steered clear of the rooms placed before it. */
  ghost predicate SeparatedFrom(out: seq<Rect>, rooms: seq<Rect>, order: seq<nat>,
                                increment: real, sqrt: real -> real) {
    && IsPermutation(order, |rooms|)
    && exists placed :: |placed| == |rooms| &&
         PlacedFrom(placed, rooms, order, increment, sqrt) && out == Translate(placed)
  }

  /** Steering gets stuck for some stacking of rooms: a candidate still
      hits the rooms placed before it after each of its first fuel steps. */
  ghost predicate SteeringStuck(rooms: seq<Rect>, increment: real, sqrt: real -> real, fuel: nat) {
    exists order, placed :: IsPermutation(order, |rooms|) &&
      StuckAfter(placed, rooms, order, increment, sqrt, fuel)
  }

  /** Separation: the conflict graph, the removal loop (with the decrement
      addressed by room id), steering in stack order, and the move into
      non-negative space. Every candidate ends up placed, without overlaps. */
  method Separate(rooms: seq<Rect>, pick: seq<int> -> nat, increment: real,
                  sqrt: real -> real, fuel: nat)
    returns (r: Result<Separated, GenError>)
    requires PicksLive(pick)
    ensures r.Failure? ==> r.error == EmptyRoomList || r.error == NoConvergence
    ensures r.Failure? && r.error == EmptyRoomList <==> |rooms| == 0
    ensures fuel > 0 && |rooms| == 1 ==> r.Success?
    ensures r.Success? ==> IsPermutation(r.value.order, |rooms|) && |r.value.rooms| == |rooms|
    ensures r.Success? ==> forall k :: 0 <= k < |rooms| ==>
      r.value.rooms[k].width == rooms[r.value.order[k]].width &&
      r.value.rooms[k].height == rooms[r.value.order[k]].height
    ensures r.Success? ==> NoOverlap(r.value.rooms)
    ensures r.Success? ==> forall k :: 0 <= k < |rooms| ==>
      r.value.rooms[k].anchor.x >= 0.0 && r.value.rooms[k].anchor.y >= 0.0
    ensures r.Success? ==> SeparatedFrom(r.value.rooms, rooms, r.value.order, increment, sqrt)
    ensures r.Failure? && r.error == NoConvergence ==> SteeringStuck(rooms, increment, sqrt, fuel)
  {
    var adj, deg := BuildGraph(rooms);
    var removed := RemoveAll(deg, adj, pick);
    if removed.Failure? {
      return Failure(removed.error);
    }
    var stack := removed.value;
    var placed := PlaceRooms(rooms, stack, increment, sqrt, fuel);
    if placed.Failure? {
      ghost var stuck :| StuckAfter(stuck, rooms, stack, increment, sqrt, fuel);
      assert SteeringStuck(rooms, increment, sqrt, fuel);
      return Failure(placed.error);
    }
    TranslatedLayout(rooms, stack, placed.value);
    r := Success(Separated(Translate(placed.value), stack));
  }

  /** The translated layout keeps what placement established: one room per
      stack entry with that candidate's size, and no overlaps; its anchors
      are non-negative. */
  lemma TranslatedLayout(rooms: seq<Rect>, stack: seq<nat>, placed: seq<Rect>)
    requires |placed| == |stack| && NoOverlap(placed)
    requires forall k :: 0 <= k < |stack| ==> stack[k] < |rooms|
    requires forall k :: 0 <= k < |stack| ==>
      placed[k].width == rooms[stack[k]].width && placed[k].height == rooms[stack[k]].height
    ensures |Translate(placed)| == |stack| && NoOverlap(Translate(placed))
    ensures forall k :: 0 <= k < |stack| ==>
      Translate(placed)[k].width == rooms[stack[k]].width &&
      Translate(placed)[k].height == rooms[stack[k]].height
    ensures forall k :: 0 <= k < |stack| ==>
      Translate(placed)[k].anchor.x >= 0.0 && Translate(placed)[k].anchor.y >= 0.0
  {
    TranslateKeepsNoOverlap(placed);
  }

  /** The blocks of the rooms, one per room. */
  function Blocks(rs: seq<Rect>): (bs: seq<Block>)
    ensures |bs| == |rs|
  {
    seq(|rs|, k requires 0 <= k < |rs| => ToBlock(rs[k]))
  }

  /** The area sort yields a ranking of the rooms. Its order is that of a
      string comparison in the source, so nothing more is assumed. */
  ghost predicate Ranks(rank: seq<Rect> -> seq<nat>) {
    forall rs {:trigger rank(rs)} :: IsRanking(rank(rs), |rs|)
  }

  /** The triangulation yields corner triples of the given points. */
  ghost predicate Triangulates(triangulate: seq<Point> -> seq<nat>) {
    forall ps {:trigger triangulate(ps)} :: |triangulate(ps)| % 3 == 0 && forall k :: 0 <= k < |triangulate(ps)| ==> triangulate(ps)[k] < |ps|
  }

  /** The anchors of the first count rooms of the ranking, in rank order:
      the points the triangulation is given. */
  function PrincipalAnchors(rooms: seq<Rect>, area: seq<nat>, count: nat): (ps: seq<Point>)
    requires IsRanking(area, |rooms|) && count <= |rooms|
    ensures |ps| == count
  {
    seq(count, i requires 0 <= i < count => rooms[area[i]].anchor)
  }

  /** w is the weight matrix of the points under the triangles tri: the
      distance between two corners of a common triangle, the sentinel
      between any other two points. */
  predicate WeightsOver(w: seq<seq<real>>, points: seq<Point>, tri: seq<nat>, sqrt: real -> real) {
    && |tri| % 3 == 0
    && Square(w, |points|)
    && forall u: nat, v: nat :: u < |points| && v < |points| ==>
         w[u][v] == (if SharesTriangle(tri, u, v) then Dist(points[u], points[v], sqrt) else Sentinel)
  }

  /** mst is a tree Prim's algorithm can grow over the weights of the
      points: it spans them, and each of its edges is a lightest one
      leaving the nodes selected before it. */
  ghost predicate PrimTreeOver(mst: seq<seq<nat>>, points: seq<Point>, tri: seq<nat>, sqrt: real -> real) {
    exists w, order :: WeightsOver(w, points, tri, sqrt) && SpanningTree(w, |points|, mst, order) &&
      LightEdges(w, |points|, mst, order)
  }

  /** The tree over the principal rooms: their anchors, the triangulation
      of those points, the weights between them and Prim's algorithm. It
      fails only where Prim's algorithm does, when the triangulation leaves
      the points disconnected. */
  method PrincipalTree(rooms: seq<Rect>, area: seq<nat>, count: nat,
                       triangulate: seq<Point> -> seq<nat>, sqrt: real -> real)
    returns (r: Result<seq<seq<nat>>, GenError>)
    requires IsRanking(area, |rooms|) && count <= |rooms| && Triangulates(triangulate)
    ensures r.Failure? ==> r.error == NoMst
    ensures r.Failure? ==>
      var points := PrincipalAnchors(rooms, area, count);
      NoTreeOver(points, triangulate(points), sqrt)
    ensures r.Success? ==> TreeShape(r.value, count)
    ensures r.Success? ==>
      var points := PrincipalAnchors(rooms, area, count);
      PrimTreeOver(r.value, points, triangulate(points), sqrt)
  {
    var points := SelectPrincipal(rooms, area, count);
    assert points.Success?;
    assert points.value == PrincipalAnchors(rooms, area, count);
    var tri := triangulate(points.value);
    var w := BuildWeights(points.value, tri, sqrt);
    var tree, order := Prim(w, count);
    if tree.Failure? {
      assert WeightsOver(w, points.value, tri, sqrt);
      return Failure(tree.error);
    }
    SpanningTreeShape(w, count, tree.value, order);
    assert WeightsOver(w, points.value, tri, sqrt);
    r := tree;
  }

  /** Prim's algorithm finds no tree over the points: after selecting some
      but not all of them, every edge leaving the selected ones has the
      sentinel weight. */
  ghost predicate NoTreeOver(points: seq<Point>, tri: seq<nat>, sqrt: real -> real) {
    exists w, order :: WeightsOver(w, points, tri, sqrt) && SelectionOrder(order, |points|) &&
      0 < |order| < |points| &&
      forall x, y :: x in order && 0 <= y < |points| && y !in order ==> w[x][y] >= Sentinel
  }

  /** A spanning tree's parent lists name ranks below n. */
  lemma SpanningTreeShape(w: seq<seq<real>>, n: nat, mst: seq<seq<nat>>, order: seq<nat>)
    requires SpanningTree(w, n, mst, order)
    ensures TreeShape(mst, n)
  {
    if n > 0 {
      DistinctCovers(order, n);
      forall i, j | 0 <= i < n && 0 <= j < |mst[i]|
        ensures mst[i][j] < n
      {
        var k := IndexOf(order, i);
        assert k != 0;
        assert j == 0;
      }
    }
  }

  /** genMap. Its errors are the guard on limit, an empty candidate list,
      steering that does not converge within fuel steps, a triangulation
      whose graph has no spanning tree, and blocks outside the map. Since
      every candidate is placed, the guard on limit is enough for the
      ranking reads of the principal rooms. */
  method GenMap(limit: nat, count: nat, rooms: seq<Rect>, pick: seq<int> -> nat, increment: real,
                sqrt: real -> real, fuel: nat, rank: seq<Rect> -> seq<nat>,
                triangulate: seq<Point> -> seq<nat>)
    returns (r: Result<Layout, GenError>)
    requires |rooms| == limit
    requires PicksLive(pick) && Ranks(rank) && Triangulates(triangulate)
    ensures r.Failure? && r.error == LimitBelowCount <==> limit < count
    ensures r.Failure? && r.error == EmptyRoomList <==> limit == 0 && count == 0
    ensures r.Failure? ==> r.error != TooFewPlaced
    ensures r.Success? ==> IsPermutation(r.value.order, limit) && |r.value.rooms| == limit
    ensures r.Success? ==> NoOverlap(r.value.rooms)
    ensures r.Success? ==> forall k :: 0 <= k < limit ==>
      r.value.rooms[k].width == rooms[r.value.order[k]].width &&
      r.value.rooms[k].height == rooms[r.value.order[k]].height &&
      r.value.rooms[k].anchor.x >= 0.0 && r.value.rooms[k].anchor.y >= 0.0
    ensures r.Success? ==> IsRanking(r.value.area, limit) && TreeShape(r.value.mst, count)
    ensures r.Success? ==> Valid(r.value.grid) && r.value.grid.width == MapSide && r.value.grid.height == MapSide
    ensures r.Success? ==> CoveredAdded(r.value.grid, Blocks(r.value.rooms), r.value.added)
    ensures r.Success? ==> forall i :: 0 <= i < count ==> r.value.added[r.value.area[i]]
    ensures r.Success? ==> forall i, j :: 0 <= i < count && 0 <= j < |r.value.mst[i]| ==>
      EdgeDone(r.value.grid, Blocks(r.value.rooms), r.value.area, r.value.added, i, r.value.mst[i][j])
    ensures r.Failure? && r.error == NoConvergence ==> SteeringStuck(rooms, increment, sqrt, fuel)
    ensures r.Failure? && r.error == NoMst ==>
      exists sep, order :: |sep| == limit && SeparatedFrom(sep, rooms, order, increment, sqrt) &&
        var points := PrincipalAnchors(sep, rank(sep), count);
        NoTreeOver(points, triangulate(points), sqrt)
    ensures r.Failure? && r.error == OffGrid ==>
      exists sep, order :: |sep| == limit && SeparatedFrom(sep, rooms, order, increment, sqrt) &&
        exists k :: 0 <= k < |sep| && !OnMap(Blocks(sep)[k])
    ensures r.Success? ==> SeparatedFrom(r.value.rooms, rooms, r.value.order, increment, sqrt)
    ensures r.Success? ==> r.value.area == rank(r.value.rooms)
    ensures r.Success? ==>
      var points := PrincipalAnchors(r.value.rooms, r.value.area, count);
      PrimTreeOver(r.value.mst, points, triangulate(points), sqrt)
  {
    var guard := CheckLimit(limit, count);
    if guard.Failure? {
      return Failure(guard.error);
    }
    var separated := Separate(rooms, pick, increment, sqrt, fuel);
    if separated.Failure? {
      return Failure(separated.error);
    }
    var placed := separated.value.rooms;
    var area := rank(placed);
    var tree := PrincipalTree(placed, area, count, triangulate, sqrt);
    if tree.Failure? {
      assert SeparatedFrom(placed, rooms, separated.value.order, increment, sqrt);
      return Failure(tree.error);
    }
    assert SeparatedFrom(placed, rooms, separated.value.order, increment, sqrt);
    r := Render(separated.value, area, count, tree.value);
  }

  /** Both corners of b are cells of the 150 by 150 map. */
  predicate OnMap(b: Block) {
    && 0 <= b.tl.x < MapSide && 0 <= b.tl.y < MapSide
    && 0 <= b.br.x < MapSide && 0 <= b.br.y < MapSide
  }

  /** Painting: the principal blocks, then the tree's corridors. A room
      whose block has a corner off the map stops it, whether or not that
      block would be painted. */
  method Render(sep: Separated, area: seq<nat>, count: nat, mst: seq<seq<nat>>)
    returns (r: Result<Layout, GenError>)
    requires IsRanking(area, |sep.rooms|) && count <= |sep.rooms| && TreeShape(mst, count)
    ensures r.Failure? ==> r.error == OffGrid
    ensures r.Failure? <==> exists k :: 0 <= k < |sep.rooms| && !OnMap(Blocks(sep.rooms)[k])
    ensures r.Success? ==> r.value.rooms == sep.rooms && r.value.order == sep.order
    ensures r.Success? ==> r.value.area == area && r.value.mst == mst
    ensures r.Success? ==> Valid(r.value.grid) && r.value.grid.width == MapSide && r.value.grid.height == MapSide
    ensures r.Success? ==> CoveredAdded(r.value.grid, Blocks(sep.rooms), r.value.added)
    ensures r.Success? ==> forall i :: 0 <= i < count ==> r.value.added[area[i]]
    ensures r.Success? ==> forall i, j :: 0 <= i < count && 0 <= j < |mst[i]| ==>
      EdgeDone(r.value.grid, Blocks(sep.rooms), area, r.value.added, i, mst[i][j])
  {
    if !(forall k :: 0 <= k < |sep.rooms| ==> OnMap(Blocks(sep.rooms)[k])) {
      return Failure(OffGrid);
    }
    var layout := Paint(sep, area, count, mst);
    r := Success(layout);
  }

  /** The two painting loops on a fresh map, once every block is on it. */
  method Paint(sep: Separated, area: seq<nat>, count: nat, mst: seq<seq<nat>>)
    returns (l: Layout)
    requires IsRanking(area, |sep.rooms|) && count <= |sep.rooms| && TreeShape(mst, count)
    requires forall k :: 0 <= k < |sep.rooms| ==> OnMap(Blocks(sep.rooms)[k])
    ensures l.rooms == sep.rooms && l.order == sep.order && l.area == area && l.mst == mst
    ensures Valid(l.grid) && l.grid.width == MapSide && l.grid.height == MapSide
    ensures CoveredAdded(l.grid, Blocks(sep.rooms), l.added)
    ensures forall i :: 0 <= i < count ==> l.added[area[i]]
    ensures forall i, j :: 0 <= i < count && 0 <= j < |mst[i]| ==>
      EdgeDone(l.grid, Blocks(sep.rooms), area, l.added, i, mst[i][j])
  {
    var blocks := Blocks(sep.rooms);
    var g := EmptyGrid(MapSide, MapSide);
    assert forall k :: 0 <= k < |blocks| ==> CornersInGrid(g, blocks[k]);
    var g1, added := PaintPrincipal(g, blocks, area, count);
    forall i | 0 <= i < count
      ensures added[area[i]]
    {
      assert area[i] in area[..count];
    }
    var g2, now := ConnectRooms(g1, blocks, area, added, mst);
    l := Layout(sep.rooms, sep.order, area, mst, g2, now);
  }
}

=== FILE: geometry.dfy ===
/** Points and rooms on the real plane: the Point and Rectangle classes. */
module Geometry {

  datatype Point = Point(x: real, y: real)

  const Origin: Point := Point(0.0, 0.0)

  /** A room: its top-left anchor and its extent. The constructor's cached
      centre is never read, so it is not part of the value. */
  datatype Rect = Rect(anchor: Point, width: real, height: real)

  function Abs(v: real): (r: real)
    ensures r >= 0.0
    ensures r == v || r == -v
  {
    if v < 0.0 then -v else v
  }

  function Sub(p: Point, q: Point): Point {
    Point(p.x - q.x, p.y - q.y)
  }

  function Scale(p: Point, k: real): Point {
    Point(p.x * k, p.y * k)
  }

  function Norm2(p: Point): real {
    p.x * p.x + p.y * p.y
  }

  /** Point.normalize, with the square root passed in: the zero-length
      vector maps to itself, any other vector is divided by its length. */
  function Normalize(p: Point, sqrt: real -> real): (r: Point)
    ensures p == Origin ==> r == Origin
    ensures sqrt(Norm2(p)) != 0.0 ==> r.x * sqrt(Norm2(p)) == p.x && r.y * sqrt(Norm2(p)) == p.y
  {
    var d := sqrt(Norm2(p));
    if d == 0.0 then Origin else Point(p.x / d, p.y / d)
  }

  function Center(r: Rect): Point {
    Point(r.anchor.x + r.width / 2.0, r.anchor.y + r.height / 2.0)
  }

  /** Moves a room by the vector d, keeping its size. */
  function Shift(r: Rect, d: Point): (s: Rect)
    ensures s.width == r.width && s.height == r.height
    ensures Sub(s.anchor, r.anchor) == d
  {
    r.(anchor := Point(r.anchor.x + d.x, r.anchor.y + d.y))
  }

  /** Rectangle.intersect: the centres are closer than the half-extent sums
      on both axes, strictly. Equivalently the open extents overlap on both
      axes, so rooms that only share an edge do not intersect. */
  predicate Intersect(a: Rect, b: Rect)
    ensures Intersect(a, b) <==>
      && a.anchor.x < b.anchor.x + b.width && b.anchor.x < a.anchor.x + a.width
      && a.anchor.y < b.anchor.y + b.height && b.anchor.y < a.anchor.y + a.height
  {
    var ca := Center(a);
    var cb := Center(b);
    Abs(ca.x - cb.x) < a.width / 2.0 + b.width / 2.0
    && Abs(ca.y - cb.y) < a.height / 2.0 + b.height / 2.0
  }

  lemma IntersectSymmetric(a: Rect, b: Rect)
    ensures Intersect(a, b) <==> Intersect(b, a)
  {
  }

  /** Rooms whose centre distance on one axis equals the half-extent sum
      touch along an edge and do not intersect. */
  lemma TouchingDoesNotIntersect(a: Rect, b: Rect)
    requires Abs(Center(a).x - Center(b).x) == a.width / 2.0 + b.width / 2.0
          || Abs(Center(a).y - Center(b).y) == a.height / 2.0 + b.height / 2.0
    ensures !Intersect(a, b)
  {
  }

  /** Moving both rooms by the same vector does not change the answer. */
  lemma IntersectTranslation(a: Rect, b: Rect, d: Point)
    ensures Intersect(Shift(a, d), Shift(b, d)) <==> Intersect(a, b)
  {
  }

  lemma IntersectSelf(a: Rect)
    requires a.width > 0.0 && a.height > 0.0
    ensures Intersect(a, a)
  {
  }

  lemma NormalizeZero(sqrt: real -> real)
    ensures Normalize(Origin, sqrt) == Origin
  {
  }
}

=== FILE: hallways.dfy ===
/** Painting the map: the principal rooms' blocks first, then one corridor
    per spanning-tree edge whose blocks face each other across a horizontal
    gap, absorbing every not yet added block the corridor overlaps. */
module Hallways {
  import opened Counting
  import opened TileMap
  import opened Selection
  import opened Raster

  /** Every cell of the grid that lies in b is 1. */
  ghost predicate Covered(g: Grid, b: Block)
    requires Valid(g)
  {
    forall x, y :: InGrid(g, x, y) && InBlock(b, x, y) ==> At(g, x, y) == 1
  }

  /** g has g0's shape, and every cell that was 1 in g0 is still 1. */
  ghost predicate Grows(g0: Grid, g: Grid) {
    && Valid(g0) && Valid(g) && g.width == g0.width && g.height == g0.height
    && forall x, y :: InGrid(g0, x, y) && At(g0, x, y) == 1 ==> At(g, x, y) == 1
  }

  /** Every block marked as added is painted. */
  ghost predicate CoveredAdded(g: Grid, blocks: seq<Block>, added: seq<bool>)
    requires Valid(g)
  {
    |added| == |blocks| && forall k :: 0 <= k < |added| && added[k] ==> Covered(g, blocks[k])
  }

  lemma GrowsKeepsCovered(g0: Grid, g: Grid, b: Block)
    requires Grows(g0, g) && Covered(g0, b)
    ensures Covered(g, b)
  {
  }

  lemma GrowsTransitive(g0: Grid, g1: Grid, g2: Grid)
    requires Grows(g0, g1) && Grows(g1, g2)
    ensures Grows(g0, g2)
  {
  }

  /** addBlock paints b and keeps every 1. */
  lemma AddBlockGrows(g: Grid, b: Block, r: Grid)
    requires Valid(g) && Valid(r) && r.width == g.width && r.height == g.height
    requires forall x, y :: InGrid(r, x, y) ==> At(r, x, y) == (if InBlock(b, x, y) then 1 else At(g, x, y))
    ensures Grows(g, r) && Covered(r, b)
  {
  }

  // ---------------------------------------------------------------------
  // The principal blocks
  // ---------------------------------------------------------------------

  /** The loop that adds the blocks of the count largest rooms: each is
      painted and marked, in rank order; no other cell changes. */
  method PaintPrincipal(g: Grid, blocks: seq<Block>, area: seq<nat>, count: nat)
    returns (r: Grid, added: seq<bool>)
    requires Valid(g) && IsRanking(area, |blocks|) && count <= |blocks|
    requires forall k :: 0 <= k < |blocks| ==> Fits(g, blocks[k])
    ensures Grows(g, r)
    ensures |r.blocks| == |g.blocks| + count && r.blocks[..|g.blocks|] == g.blocks
    ensures forall i :: 0 <= i < count ==> r.blocks[|g.blocks| + i] == blocks[area[i]]
    ensures |added| == |blocks|
    ensures forall k :: 0 <= k < |blocks| ==> (added[k] <==> k in area[..count])
    ensures CoveredAdded(r, blocks, added)
    ensures forall x, y :: InGrid(g, x, y) && (forall i :: 0 <= i < count ==> !InBlock(blocks[area[i]], x, y)) ==>
      At(r, x, y) == At(g, x, y)
  {
    r := g;
    added := seq(|blocks|, k => false);
    var i := 0;
    while i < count
      invariant 0 <= i <= count
      invariant Grows(g, r)
      invariant |r.blocks| == |g.blocks| + i && r.blocks[..|g.blocks|] == g.blocks
      invariant forall i' :: 0 <= i' < i ==> r.blocks[|g.blocks| + i'] == blocks[area[i']]
      invariant |added| == |blocks|
      invariant forall k :: 0 <= k < |blocks| ==> (added[k] <==> k in area[..i])
      invariant CoveredAdded(r, blocks, added)
      invariant forall x, y :: InGrid(g, x, y) && (forall i' :: 0 <= i' < i ==> !InBlock(blocks[area[i']], x, y)) ==>
        At(r, x, y) == At(g, x, y)
    {
      var b := blocks[area[i]];
      var r' := AddBlock(r, b);
      AddBlockGrows(r, b, r');
      forall k | 0 <= k < |added| && added[k]
        ensures Covered(r', blocks[k])
      {
        GrowsKeepsCovered(r, r', blocks[k]);
      }
      GrowsTransitive(g, r, r');
      assert area[..i + 1] == area[..i] + [area[i]];
      r := r';
      added := added[area[i] := true];
      i := i + 1;
    }
  }

  // ---------------------------------------------------------------------
  // Absorbing the blocks a corridor crosses
  // ---------------------------------------------------------------------

  /** Block k is one the corridor absorbs: not yet added, and overlapping. */
  predicate Absorbs(blocks: seq<Block>, added: seq<bool>, path: Block, k: int)
    requires |added| == |blocks|
  {
    0 <= k < |blocks| && !added[k] && BlockOverlap(path, blocks[k])
  }

  /** No block the corridor absorbs among the first i covers (x, y). */
  ghost predicate OutsideAbsorbed(blocks: seq<Block>, added: seq<bool>, path: Block, i: int, x: int, y: int)
    requires |added| == |blocks|
  {
    forall k :: 0 <= k < i && Absorbs(blocks, added, path, k) ==> !InBlock(blocks[k], x, y)
  }

  /** The loop after a corridor is added: every block not yet added that
      the corridor overlaps is marked and painted; no other mark and no
      cell outside those blocks changes. */
  method Absorb(g: Grid, blocks: seq<Block>, added: seq<bool>, path: Block)
    returns (r: Grid, now: seq<bool>)
    requires Valid(g) && |added| == |blocks|
    requires forall k :: 0 <= k < |blocks| ==> Fits(g, blocks[k])
    ensures Grows(g, r)
    ensures |now| == |added|
    ensures forall k :: 0 <= k < |added| ==> (now[k] <==> added[k] || BlockOverlap(path, blocks[k]))
    ensures forall k :: Absorbs(blocks, added, path, k) ==> Covered(r, blocks[k])
    ensures forall x, y :: InGrid(g, x, y) && OutsideAbsorbed(blocks, added, path, |blocks|, x, y) ==>
      At(r, x, y) == At(g, x, y)
  {
    r, now := g, added;
    var i := 0;
    while i < |blocks|
      invariant 0 <= i <= |blocks|
      invariant Grows(g, r)
      invariant |now| == |added|
      invariant forall k :: 0 <= k < |added| ==>
        (now[k] <==> added[k] || (k < i && BlockOverlap(path, blocks[k])))
      invariant forall k :: 0 <= k < i && Absorbs(blocks, added, path, k) ==> Covered(r, blocks[k])
      invariant forall x, y :: InGrid(g, x, y) && OutsideAbsorbed(blocks, added, path, i, x, y) ==>
        At(r, x, y) == At(g, x, y)
    {
      if !now[i] && BlockOverlap(path, blocks[i]) {
        var r' := AddBlock(r, blocks[i]);
        AddBlockGrows(r, blocks[i], r');
        AbsorbStep(g, r, r', blocks, added, path, i);
        GrowsTransitive(g, r, r');
        r := r';
        now := now[i := true];
      }
      i := i + 1;
    }
  }

  lemma AbsorbStep(g: Grid, r: Grid, r': Grid, blocks: seq<Block>, added: seq<bool>, path: Block, i: nat)
    requires |added| == |blocks| && i < |blocks| && Absorbs(blocks, added, path, i)
    requires Grows(g, r) && Grows(r, r') && Covered(r', blocks[i])
    requires forall x, y :: InGrid(r', x, y) ==> At(r', x, y) == (if InBlock(blocks[i], x, y) then 1 else At(r, x, y))
    requires forall k :: 0 <= k < i && Absorbs(blocks, added, path, k) ==> Covered(r, blocks[k])
    requires forall x, y :: InGrid(g, x, y) && OutsideAbsorbed(blocks, added, path, i, x, y) ==>
      At(r, x, y) == At(g, x, y)
    ensures forall k :: 0 <= k < i + 1 && Absorbs(blocks, added, path, k) ==> Covered(r', blocks[k])
    ensures forall x, y :: InGrid(g, x, y) && OutsideAbsorbed(blocks, added, path, i + 1, x, y) ==>
      At(r', x, y) == At(g, x, y)
  {
    forall k | 0 <= k < i && Absorbs(blocks, added, path, k)
      ensures Covered(r', blocks[k])
    {
      GrowsKeepsCovered(r, r', blocks[k]);
    }
    forall x, y | InGrid(g, x, y) && OutsideAbsorbed(blocks, added, path, i + 1, x, y)
      ensures At(r', x, y) == At(g, x, y)
    {
      assert !InBlock(blocks[i], x, y);
      assert OutsideAbsorbed(blocks, added, path, i, x, y);
    }
  }

  // ---------------------------------------------------------------------
  // One corridor per tree edge
  // ---------------------------------------------------------------------

  /** The as-written ends of the edge from the room ranked i to the room
      ranked p: the first end takes i as a room index, not as a rank. */
  function EdgeEndsAsWritten(blocks: seq<Block>, area: seq<nat>, i: nat, p: nat): (Block, Block)
    requires IsRanking(area, |blocks|) && i < |blocks| && p < |blocks|
  {
    (blocks[i], blocks[area[p]])
  }

  /** The ends of the edge from the room ranked i to the room ranked p. */
  function EdgeEnds(blocks: seq<Block>, area: seq<nat>, i: nat, p: nat): (Block, Block)
    requires IsRanking(area, |blocks|) && i < |blocks| && p < |blocks|
  {
    (blocks[area[i]], blocks[area[p]])
  }

  /** With the corrected ends, an edge between two different ranks joins
      the blocks of two different rooms. */
  lemma EdgeEndsDifferentRooms(blocks: seq<Block>, area: seq<nat>, i: nat, p: nat)
    requires IsRanking(area, |blocks|) && i < |blocks| && p < |blocks| && i != p
    ensures area[i] != area[p] && area[i] < |blocks| && area[p] < |blocks|
    ensures EdgeEnds(blocks, area, i, p) == (blocks[area[i]], blocks[area[p]])
  {
  }

  /** A corridor from a block to itself paints nothing. */
  lemma SelfCorridorEmpty(b: Block)
    requires Proper(b)
    ensures !Paints(HorizontalCorridor(b, b))
  {
  }

  /** Two rooms side by side, rank order the reverse of room order, and the
      one tree edge from rank 1 to rank 0: as written both ends are room 1's
      block, so the edge gets an empty corridor; the corrected ends are the
      two rooms, and their corridor covers the columns between them. */
  lemma EdgeEndsExample()
    ensures var blocks := [Block(Cell(0, 0), Cell(3, 3)), Block(Cell(10, 0), Cell(13, 3))];
            var area: seq<nat> := [1, 0];
            && IsRanking(area, 2)
            && EdgeEndsAsWritten(blocks, area, 1, 0) == (blocks[1], blocks[1])
            && HorizontalCondition(blocks[1], blocks[1])
            && !Paints(HorizontalCorridor(blocks[1], blocks[1]))
            && EdgeEnds(blocks, area, 1, 0) == (blocks[0], blocks[1])
            && HorizontalCondition(blocks[0], blocks[1])
            && HorizontalCorridor(blocks[0], blocks[1]) == Block(Cell(4, 0), Cell(9, 3))
  {
    var blocks := [Block(Cell(0, 0), Cell(3, 3)), Block(Cell(10, 0), Cell(13, 3))];
    var area: seq<nat> := [1, 0];
    assert IsRanking(area, 2);
  }

  /** The test and the painting for one edge between blocks b1 and b2:
      when the blocks face each other across a horizontal gap, the corridor
      is painted and every block it overlaps is marked and painted; when
      they do not, nothing changes. */
  method ConnectEdge(g: Grid, blocks: seq<Block>, added: seq<bool>, b1: Block, b2: Block)
    returns (r: Grid, now: seq<bool>)
    requires Valid(g) && CornersInGrid(g, b1) && CornersInGrid(g, b2)
    requires |added| == |blocks| && forall k :: 0 <= k < |blocks| ==> Fits(g, blocks[k])
    requires CoveredAdded(g, blocks, added)
    ensures Grows(g, r)
    ensures |now| == |added| && forall k :: 0 <= k < |added| && added[k] ==> now[k]
    ensures CoveredAdded(r, blocks, now)
    ensures HorizontalCondition(b1, b2) ==> Covered(r, HorizontalCorridor(b1, b2))
    ensures HorizontalCondition(b1, b2) ==>
      forall k :: 0 <= k < |blocks| && BlockOverlap(HorizontalCorridor(b1, b2), blocks[k]) ==> now[k]
    ensures !HorizontalCondition(b1, b2) ==> r == g && now == added
  {
    if !HorizontalCondition(b1, b2) {
      return g, added;
    }
    var path := HorizontalCorridor(b1, b2);
    CorridorFits(g, b1, b2);
    var g1 := AddBlock(g, path);
    AddBlockGrows(g, path, g1);
    r, now := Absorb(g1, blocks, added, path);
    GrowsTransitive(g, g1, r);
    GrowsKeepsCovered(g1, r, path);
    forall k | 0 <= k < |now| && now[k]
      ensures Covered(r, blocks[k])
    {
      if added[k] {
        GrowsKeepsCovered(g, r, blocks[k]);
      } else {
        assert Absorbs(blocks, added, path, k);
      }
    }
  }

  /** Every entry of the tree's parent lists is a rank below count. */
  predicate TreeShape(mst: seq<seq<nat>>, count: nat) {
    |mst| == count && forall i, j :: 0 <= i < count && 0 <= j < |mst[i]| ==> mst[i][j] < count
  }

  /** The edge from rank i to rank p is done in g: when its corrected ends
      face each other across a horizontal gap, its corridor is painted and
      every block the corridor overlaps is marked. */
  ghost predicate EdgeDone(g: Grid, blocks: seq<Block>, area: seq<nat>, added: seq<bool>, i: nat, p: nat)
    requires Valid(g) && IsRanking(area, |blocks|) && i < |blocks| && p < |blocks| && |added| == |blocks|
  {
    var (b1, b2) := EdgeEnds(blocks, area, i, p);
    HorizontalCondition(b1, b2) ==>
      && Covered(g, HorizontalCorridor(b1, b2))
      && forall k :: 0 <= k < |blocks| && BlockOverlap(HorizontalCorridor(b1, b2), blocks[k]) ==> added[k]
  }

  /** The edges of the ranks below i, and the first j edges of rank i, are
      done. */
  ghost predicate EdgesDone(g: Grid, blocks: seq<Block>, area: seq<nat>, added: seq<bool>,
                            mst: seq<seq<nat>>, i: nat, j: nat)
    requires Valid(g) && IsRanking(area, |blocks|) && |mst| <= |blocks| && TreeShape(mst, |mst|)
    requires |added| == |blocks| && i <= |mst|
  {
    && (forall i', j' :: 0 <= i' < i && 0 <= j' < |mst[i']| ==> EdgeDone(g, blocks, area, added, i', mst[i'][j']))
    && (i < |mst| ==> forall j' :: 0 <= j' < j && j' < |mst[i]| ==> EdgeDone(g, blocks, area, added, i, mst[i][j']))
  }

  /** Growing the grid and the marks keeps the edges that are done done. */
  lemma GrowsKeepsEdgesDone(g: Grid, r: Grid, blocks: seq<Block>, area: seq<nat>,
                            added: seq<bool>, now: seq<bool>, mst: seq<seq<nat>>, i: nat, j: nat)
    requires Grows(g, r) && IsRanking(area, |blocks|) && |mst| <= |blocks| && TreeShape(mst, |mst|)
    requires |added| == |blocks| && |now| == |blocks| && i <= |mst|
    requires forall k :: 0 <= k < |added| && added[k] ==> now[k]
    requires EdgesDone(g, blocks, area, added, mst, i, j)
    ensures EdgesDone(r, blocks, area, now, mst, i, j)
  {
    forall i', j' | 0 <= i' < i && 0 <= j' < |mst[i']|
      ensures EdgeDone(r, blocks, area, now, i', mst[i'][j'])
    {
      EdgeDoneGrows(g, r, blocks, area, added, now, i', mst[i'][j']);
    }
    if i < |mst| {
      forall j' | 0 <= j' < j && j' < |mst[i]|
        ensures EdgeDone(r, blocks, area, now, i, mst[i][j'])
      {
        EdgeDoneGrows(g, r, blocks, area, added, now, i, mst[i][j']);
      }
    }
  }

  lemma EdgeDoneGrows(g: Grid, r: Grid, blocks: seq<Block>, area: seq<nat>,
                      added: seq<bool>, now: seq<bool>, i: nat, p: nat)
    requires Grows(g, r) && IsRanking(area, |blocks|) && i < |blocks| && p < |blocks|
    requires |added| == |blocks| && |now| == |blocks|
    requires forall k :: 0 <= k < |added| && added[k] ==> now[k]
    requires EdgeDone(g, blocks, area, added, i, p)
    ensures EdgeDone(r, blocks, area, now, i, p)
  {
    var (b1, b2) := EdgeEnds(blocks, area, i, p);
    if HorizontalCondition(b1, b2) {
      GrowsKeepsCovered(g, r, HorizontalCorridor(b1, b2));
    }
  }

  /** The edges of one rank: the inner loop over mst[i]. */
  method ConnectRank(g: Grid, blocks: seq<Block>, area: seq<nat>, added: seq<bool>,
                     mst: seq<seq<nat>>, i: nat)
    returns (r: Grid, now: seq<bool>)
    requires Valid(g) && IsRanking(area, |blocks|) && |mst| <= |blocks| && TreeShape(mst, |mst|)
    requires i < |mst| && forall k :: 0 <= k < |blocks| ==> CornersInGrid(g, blocks[k])
    requires CoveredAdded(g, blocks, added)
    requires EdgesDone(g, blocks, area, added, mst, i, 0)
    ensures Grows(g, r)
    ensures |now| == |added| && forall k :: 0 <= k < |added| && added[k] ==> now[k]
    ensures CoveredAdded(r, blocks, now)
    ensures EdgesDone(r, blocks, area, now, mst, i + 1, 0)
  {
    r, now := g, added;
    var j := 0;
    while j < |mst[i]|
      invariant 0 <= j <= |mst[i]|
      invariant Grows(g, r)
      invariant |now| == |added| && forall k :: 0 <= k < |added| && added[k] ==> now[k]
      invariant CoveredAdded(r, blocks, now)
      invariant EdgesDone(r, blocks, area, now, mst, i, j)
    {
      var p := mst[i][j];
      var (b1, b2) := EdgeEnds(blocks, area, i, p);
      var r', now' := ConnectEdge(r, blocks, now, b1, b2);
      GrowsKeepsEdgesDone(r, r', blocks, area, now, now', mst, i, j);
      GrowsTransitive(g, r, r');
      EdgesDoneNext(r', blocks, area, now', mst, i, j);
      r, now := r', now';
      j := j + 1;
    }
    EdgesDoneRank(r, blocks, area, now, mst, i);
  }

  lemma EdgesDoneNext(g: Grid, blocks: seq<Block>, area: seq<nat>, added: seq<bool>,
                      mst: seq<seq<nat>>, i: nat, j: nat)
    requires Valid(g) && IsRanking(area, |blocks|) && |mst| <= |blocks| && TreeShape(mst, |mst|)
    requires |added| == |blocks| && i < |mst| && j < |mst[i]|
    requires EdgesDone(g, blocks, area, added, mst, i, j)
    requires var (b1, b2) := EdgeEnds(blocks, area, i, mst[i][j]);
      HorizontalCondition(b1, b2) ==>
        && Covered(g, HorizontalCorridor(b1, b2))
        && forall k :: 0 <= k < |blocks| && BlockOverlap(HorizontalCorridor(b1, b2), blocks[k]) ==> added[k]
    ensures EdgesDone(g, blocks, area, added, mst, i, j + 1)
  {
    assert EdgeDone(g, blocks, area, added, i, mst[i][j]);
  }

  lemma EdgesDoneRank(g: Grid, blocks: seq<Block>, area: seq<nat>, added: seq<bool>,
                      mst: seq<seq<nat>>, i: nat)
    requires Valid(g) && IsRanking(area, |blocks|) && |mst| <= |blocks| && TreeShape(mst, |mst|)
    requires |added| == |blocks| && i < |mst|
    requires EdgesDone(g, blocks, area, added, mst, i, |mst[i]|)
    ensures EdgesDone(g, blocks, area, added, mst, i + 1, 0)
  {
  }

  /** The loop over the spanning tree, with the corrected ends, corridor
      and overlap test: afterwards every tree edge whose blocks face each
      other across a horizontal gap has its corridor painted and every block
      that corridor overlaps marked and painted; no cell that was 1 changes
      and no mark is cleared. */
  method ConnectRooms(g: Grid, blocks: seq<Block>, area: seq<nat>, added: seq<bool>,
                      mst: seq<seq<nat>>)
    returns (r: Grid, now: seq<bool>)
    requires Valid(g) && IsRanking(area, |blocks|) && |mst| <= |blocks| && TreeShape(mst, |mst|)
    requires forall k :: 0 <= k < |blocks| ==> CornersInGrid(g, blocks[k])
    requires CoveredAdded(g, blocks, added)
    ensures Grows(g, r)
    ensures |now| == |added| && forall k :: 0 <= k < |added| && added[k] ==> now[k]
    ensures CoveredAdded(r, blocks, now)
    ensures forall i, j :: 0 <= i < |mst| && 0 <= j < |mst[i]| ==> EdgeDone(r, blocks, area, now, i, mst[i][j])
  {
    r, now := g, added;
    var i := 0;
    while i < |mst|
      invariant 0 <= i <= |mst|
      invariant Grows(g, r)
      invariant |now| == |added| && forall k :: 0 <= k < |added| && added[k] ==> now[k]
      invariant CoveredAdded(r, blocks, now)
      invariant EdgesDone(r, blocks, area, now, mst, i, 0)
    {
      var r', now' := ConnectRank(r, blocks, area, now, mst, i);
      GrowsTransitive(g, r, r');
      r, now := r', now';
      i := i + 1;
    }
  }
}

=== FILE: placement.dfy ===
/** Placing the rooms one by one in stack order, each steered away from the
    centroid of the rooms placed so far until it meets none of them, and
    then moving the whole layout into non-negative space. */
module Placement {
  import opened Wrappers
  import opened Geometry

  /** The room after k steering steps of size step. */
  function Moved(top: Rect, step: Point, k: nat): (r: Rect)
    ensures r.width == top.width && r.height == top.height
    ensures k == 0 ==> r == top
  {
    if k == 0 then top else Shift(Moved(top, step, k - 1), step)
  }

  /** A step of zero length leaves the room where it is. */
  lemma {:induction false} MovedByOrigin(top: Rect, k: nat)
    ensures Moved(top, Origin, k) == top
  {
    if k > 0 {
      MovedByOrigin(top, k - 1);
    }
  }

  /** Steering moves the anchor along a line: after k steps it has moved by
      k times step on each axis. */
  lemma {:induction false} MovedOffset(top: Rect, step: Point, k: nat)
    ensures Moved(top, step, k).anchor.x == top.anchor.x + (k as real) * step.x
    ensures Moved(top, step, k).anchor.y == top.anchor.y + (k as real) * step.y
  {
    if k > 0 {
      MovedOffset(top, step, k - 1);
      assert (k as real) * step.x == ((k - 1) as real) * step.x + step.x;
      assert (k as real) * step.y == ((k - 1) as real) * step.y + step.y;
    }
  }

  predicate HitsAny(r: Rect, placed: seq<Rect>) {
    exists i :: 0 <= i < |placed| && Intersect(r, placed[i])
  }

  /** The inner for-loop over the rooms placed before: it stops at the
      first room the moved room meets. */
  method Collides(r: Rect, placed: seq<Rect>) returns (hit: bool)
    ensures hit <==> HitsAny(r, placed)
  {
    var it := 0;
    while it < |placed|
      invariant 0 <= it <= |placed|
      invariant forall i :: 0 <= i < it ==> !Intersect(r, placed[i])
    {
      if Intersect(r, placed[it]) {
        return true;
      }
      it := it + 1;
    }
    return false;
  }

  /** The steering loop, bounded by fuel. The room always takes at least
      one step; it stops at the first position that meets no placed room.
      None means fuel steps were not enough. */
  method Steer(top: Rect, placed: seq<Rect>, step: Point, fuel: nat)
    returns (r: Option<Rect>, steps: nat)
    ensures r.Some? ==> 1 <= steps <= fuel && r.value == Moved(top, step, steps)
    ensures r.Some? ==> !HitsAny(r.value, placed)
    ensures r.Some? ==> forall j :: 1 <= j < steps ==> HitsAny(Moved(top, step, j), placed)
    ensures r.None? ==> forall j :: 1 <= j <= fuel ==> HitsAny(Moved(top, step, j), placed)
  {
    var cur := top;
    steps := 0;
    while steps < fuel
      invariant 0 <= steps <= fuel
      invariant cur == Moved(top, step, steps)
      invariant forall j :: 1 <= j <= steps ==> HitsAny(Moved(top, step, j), placed)
    {
      cur := Shift(cur, step);
      steps := steps + 1;
      var hit := Collides(cur, placed);
      if !hit {
        return Some(cur), steps;
      }
    }
    return None, steps;
  }

  /** The centroid loop: every centre divided by the count, summed. */
  function CentroidSum(rs: seq<Rect>, count: real): Point
    requires |rs| == 0 || count != 0.0
  {
    if |rs| == 0 then Origin
    else
      var rest := CentroidSum(rs[..|rs| - 1], count);
      var c := Center(rs[|rs| - 1]);
      Point(rest.x + c.x / count, rest.y + c.y / count)
  }

  /** The sums of the centres' coordinates. */
  function SumCenters(rs: seq<Rect>): Point {
    if |rs| == 0 then Origin
    else
      var rest := SumCenters(rs[..|rs| - 1]);
      var c := Center(rs[|rs| - 1]);
      Point(rest.x + c.x, rest.y + c.y)
  }

  /** Dividing each centre by count before summing gives the sum of the
      centres divided by count. */
  lemma {:induction false} CentroidSumIsMean(rs: seq<Rect>, count: real)
    requires count != 0.0
    ensures CentroidSum(rs, count) == Point(SumCenters(rs).x / count, SumCenters(rs).y / count)
  {
    if |rs| > 0 {
      var init := rs[..|rs| - 1];
      CentroidSumIsMean(init, count);
      var c := Center(rs[|rs| - 1]);
      DivAdd(SumCenters(init).x, c.x, count);
      DivAdd(SumCenters(init).y, c.y, count);
    }
  }

  lemma DivAdd(a: real, b: real, c: real)
    requires c != 0.0
    ensures a / c + b / c == (a + b) / c
  {
  }

  /** The centroid loop's result: the mean of the centres. */
  function Centroid(rs: seq<Rect>): (p: Point)
    ensures |rs| > 0 ==> p == Point(SumCenters(rs).x / (|rs| as real), SumCenters(rs).y / (|rs| as real))
  {
    if |rs| > 0 then CentroidSumIsMean(rs, |rs| as real); CentroidSum(rs, |rs| as real)
    else CentroidSum(rs, |rs| as real)
  }

  lemma CentroidSingle(r: Rect)
    ensures Centroid([r]) == Center(r)
  {
    assert [r][..0] == [];
    assert CentroidSum([], 1.0) == Origin;
    var c := Center(r);
    assert c.x / 1.0 == c.x && c.y / 1.0 == c.y;
  }

  /** The step the room takes: increment times the unit vector from the
      centroid of the placed rooms and this one to this room's centre. */
  function SteerStep(top: Rect, placed: seq<Rect>, increment: real, sqrt: real -> real): Point {
    Scale(Normalize(Sub(Center(top), Centroid(placed + [top])), sqrt), increment)
  }

  /** The first room is its own centroid, so its step is zero. */
  lemma FirstStepIsZero(top: Rect, increment: real, sqrt: real -> real)
    ensures SteerStep(top, [], increment, sqrt) == Origin
  {
    CentroidSingle(top);
    assert [] + [top] == [top];
    NormalizeZero(sqrt);
  }

  predicate NoOverlap(rs: seq<Rect>) {
    forall i, j :: 0 <= i < j < |rs| ==> !Intersect(rs[i], rs[j])
  }

  /** p is top after the fewest steps of size step, at least one, that
      take it clear of every room in before. */
  ghost predicate SteeredClear(p: Rect, top: Rect, before: seq<Rect>, step: Point) {
    && !HitsAny(p, before)
    && exists k: nat :: 1 <= k && p == Moved(top, step, k) &&
         forall j :: 1 <= j < k ==> HitsAny(Moved(top, step, j), before)
  }

  /** One pass of the outer loop: the room's step is computed from the
      centroid, and the room is steered clear of the rooms placed before.
      With nothing placed yet the room stays where it is. */
  method PlaceOne(top: Rect, placed: seq<Rect>, increment: real,
                  sqrt: real -> real, fuel: nat)
    returns (r: Option<Rect>)
    ensures r.Some? ==> r.value.width == top.width && r.value.height == top.height
    ensures r.Some? ==> SteeredClear(r.value, top, placed, SteerStep(top, placed, increment, sqrt))
    ensures r.None? ==> forall j :: 1 <= j <= fuel ==>
      HitsAny(Moved(top, SteerStep(top, placed, increment, sqrt), j), placed)
    ensures |placed| == 0 ==> (r.Some? <==> fuel > 0)
    ensures |placed| == 0 && r.Some? ==> r.value == top
  {
    var step := SteerStep(top, placed, increment, sqrt);
    if |placed| == 0 {
      FirstStepIsZero(top, increment, sqrt);
      assert !HitsAny(Moved(top, step, 1), placed);
    }
    var steps;
    r, steps := Steer(top, placed, step, fuel);
    if r.Some? {
      assert r.value == Moved(top, step, steps);
    }
    if |placed| == 0 && r.Some? {
      MovedByOrigin(top, steps);
    }
  }

  /** Every room placed so far is its candidate from the stack, steered by
      its own step away from the rooms placed before it. */
  ghost predicate PlacedFrom(placed: seq<Rect>, rooms: seq<Rect>, stack: seq<nat>,
                             increment: real, sqrt: real -> real)
    requires |placed| <= |stack| && forall k :: 0 <= k < |stack| ==> stack[k] < |rooms|
  {
    forall i :: 0 <= i < |placed| ==>
      SteeredClear(placed[i], rooms[stack[i]], placed[..i],
                   SteerStep(rooms[stack[i]], placed[..i], increment, sqrt))
  }

  lemma PlacedFromAppend(placed: seq<Rect>, rooms: seq<Rect>, stack: seq<nat>,
                         increment: real, sqrt: real -> real, m: Rect)
    requires |placed| < |stack| && forall k :: 0 <= k < |stack| ==> stack[k] < |rooms|
    requires PlacedFrom(placed, rooms, stack, increment, sqrt)
    requires SteeredClear(m, rooms[stack[|placed|]], placed,
                          SteerStep(rooms[stack[|placed|]], placed, increment, sqrt))
    ensures PlacedFrom(placed + [m], rooms, stack, increment, sqrt)
  {
    var placed' := placed + [m];
    forall i | 0 <= i < |placed'|
      ensures SteeredClear(placed'[i], rooms[stack[i]], placed'[..i],
                           SteerStep(rooms[stack[i]], placed'[..i], increment, sqrt))
    {
      if i < |placed| {
        assert placed'[i] == placed[i] && placed'[..i] == placed[..i];
      } else {
        assert placed'[i] == m && placed'[..i] == placed;
      }
    }
  }

  /** The rooms in placed are the first stacked candidates, placed without
      overlaps, and the next candidate still hits one of them after each
      of its first fuel steps: the source would go on steering it forever
      or past the bound. */
  ghost predicate StuckAfter(placed: seq<Rect>, rooms: seq<Rect>, stack: seq<nat>,
                             increment: real, sqrt: real -> real, fuel: nat)
    requires forall k :: 0 <= k < |stack| ==> stack[k] < |rooms|
  {
    && |placed| < |stack|
    && NoOverlap(placed)
    && PlacedFrom(placed, rooms, stack, increment, sqrt)
    && var top := rooms[stack[|placed|]];
       forall j :: 1 <= j <= fuel ==>
         HitsAny(Moved(top, SteerStep(top, placed, increment, sqrt), j), placed)
  }

  /** The outer loop over the stack: each room is taken in stack order,
      steered, and appended. The first room never moves. It fails only
      when some candidate cannot be steered clear within fuel steps. */
  method PlaceRooms(rooms: seq<Rect>, stack: seq<nat>, increment: real,
                    sqrt: real -> real, fuel: nat)
    returns (r: Result<seq<Rect>, GenError>)
    requires forall k :: 0 <= k < |stack| ==> stack[k] < |rooms|
    ensures r.Failure? ==> r.error == NoConvergence
    ensures r.Failure? ==> exists placed :: StuckAfter(placed, rooms, stack, increment, sqrt, fuel)
    ensures r.Success? ==> |r.value| == |stack| && NoOverlap(r.value)
    ensures r.Success? ==> forall k :: 0 <= k < |stack| ==>
      r.value[k].width == rooms[stack[k]].width && r.value[k].height == rooms[stack[k]].height
    ensures r.Success? ==> PlacedFrom(r.value, rooms, stack, increment, sqrt)
    ensures r.Success? && |stack| > 0 ==> r.value[0] == rooms[stack[0]]
    ensures fuel > 0 && |stack| <= 1 ==> r.Success?
  {
    var placed: seq<Rect> := [];
    var k := 0;
    while k < |stack|
      invariant 0 <= k <= |stack|
      invariant |placed| == k && NoOverlap(placed)
      invariant forall i :: 0 <= i < k ==>
        placed[i].width == rooms[stack[i]].width && placed[i].height == rooms[stack[i]].height
      invariant PlacedFrom(placed, rooms, stack, increment, sqrt)
      invariant k > 0 ==> placed[0] == rooms[stack[0]]
    {
      var moved := PlaceOne(rooms[stack[k]], placed, increment, sqrt, fuel);
      if moved.None? {
        assert StuckAfter(placed, rooms, stack, increment, sqrt, fuel);
        return Failure(NoConvergence);
      }
      AppendKeepsNoOverlap(placed, moved.value);
      PlacedFromAppend(placed, rooms, stack, increment, sqrt, moved.value);
      placed := placed + [moved.value];
      k := k + 1;
    }
    r := Success(placed);
  }

  lemma AppendKeepsNoOverlap(placed: seq<Rect>, r: Rect)
    requires NoOverlap(placed) && !HitsAny(r, placed)
    ensures NoOverlap(placed + [r])
  {
    forall i | 0 <= i < |placed|
      ensures !Intersect(placed[i], r)
    {
      IntersectSymmetric(placed[i], r);
    }
  }

  // ---------------------------------------------------------------------
  // Translation to non-negative space
  // ---------------------------------------------------------------------

  /** The lowest anchor x, starting from 0. */
  function LowX(rs: seq<Rect>): (lx: real)
    ensures lx <= 0.0
    ensures forall i :: 0 <= i < |rs| ==> lx <= rs[i].anchor.x
    ensures lx == 0.0 || exists i :: 0 <= i < |rs| && rs[i].anchor.x == lx
  {
    if |rs| == 0 then 0.0
    else
      var rest := LowX(rs[..|rs| - 1]);
      var last := rs[|rs| - 1];
      assert forall i :: 0 <= i < |rs| - 1 ==> rs[..|rs| - 1][i] == rs[i];
      if last.anchor.x < rest then last.anchor.x else rest
  }

  /** The lowest anchor y, starting from 0. */
  function LowY(rs: seq<Rect>): (ly: real)
    ensures ly <= 0.0
    ensures forall i :: 0 <= i < |rs| ==> ly <= rs[i].anchor.y
    ensures ly == 0.0 || exists i :: 0 <= i < |rs| && rs[i].anchor.y == ly
  {
    if |rs| == 0 then 0.0
    else
      var rest := LowY(rs[..|rs| - 1]);
      var last := rs[|rs| - 1];
      assert forall i :: 0 <= i < |rs| - 1 ==> rs[..|rs| - 1][i] == rs[i];
      if last.anchor.y < rest then last.anchor.y else rest
  }

  /** Every room shifted by minus the lowest anchor coordinates: the layout
      lands in non-negative space with its shape kept, an axis on which
      some anchor was negative ends with an anchor at exactly 0, and an
      axis with no negative anchor is not moved. */
  function Translate(rs: seq<Rect>): (ts: seq<Rect>)
    ensures |ts| == |rs|
    ensures forall i :: 0 <= i < |rs| ==>
      ts[i].width == rs[i].width && ts[i].height == rs[i].height
    ensures forall i :: 0 <= i < |rs| ==> ts[i].anchor.x >= 0.0 && ts[i].anchor.y >= 0.0
    ensures forall i, j :: 0 <= i < |rs| && 0 <= j < |rs| ==>
      Sub(ts[i].anchor, ts[j].anchor) == Sub(rs[i].anchor, rs[j].anchor)
    ensures (exists i :: 0 <= i < |rs| && rs[i].anchor.x < 0.0) ==>
      exists i :: 0 <= i < |rs| && ts[i].anchor.x == 0.0
    ensures (exists i :: 0 <= i < |rs| && rs[i].anchor.y < 0.0) ==>
      exists i :: 0 <= i < |rs| && ts[i].anchor.y == 0.0
    ensures (forall i :: 0 <= i < |rs| ==> rs[i].anchor.x >= 0.0) ==>
      forall i :: 0 <= i < |rs| ==> ts[i].anchor.x == rs[i].anchor.x
    ensures (forall i :: 0 <= i < |rs| ==> rs[i].anchor.y >= 0.0) ==>
      forall i :: 0 <= i < |rs| ==> ts[i].anchor.y == rs[i].anchor.y
  {
    var lo := Lowest(rs);
    var ts := ShiftAll(rs, Point(-lo.x, -lo.y));
    ShiftKeepsShape(rs, lo, ts);
    ShiftTouchesZero(rs, lo, ts);
    ShiftKeepsNonNegativeAxis(rs, lo, ts);
    ts
  }

  /** The lowest anchor coordinates on each axis, starting from 0. */
  function Lowest(rs: seq<Rect>): (lo: Point)
    ensures lo.x == LowX(rs) && lo.y == LowY(rs)
  {
    Point(LowX(rs), LowY(rs))
  }

  /** Every room shifted by d. */
  function ShiftAll(rs: seq<Rect>, d: Point): (ts: seq<Rect>)
    ensures |ts| == |rs| && forall i :: 0 <= i < |rs| ==> ts[i] == Shift(rs[i], d)
  {
    seq(|rs|, i requires 0 <= i < |rs| => Shift(rs[i], d))
  }

  /** Shifting by minus the lowest coordinates keeps sizes and anchor
      differences and leaves no anchor negative. */
  lemma ShiftKeepsShape(rs: seq<Rect>, lo: Point, ts: seq<Rect>)
    requires lo == Lowest(rs) && ts == ShiftAll(rs, Point(-lo.x, -lo.y))
    ensures |ts| == |rs|
    ensures forall i :: 0 <= i < |rs| ==>
      ts[i].width == rs[i].width && ts[i].height == rs[i].height
    ensures forall i :: 0 <= i < |rs| ==> ts[i].anchor.x >= 0.0 && ts[i].anchor.y >= 0.0
    ensures forall i, j :: 0 <= i < |rs| && 0 <= j < |rs| ==>
      Sub(ts[i].anchor, ts[j].anchor) == Sub(rs[i].anchor, rs[j].anchor)
  {
  }

  /** An axis on which some anchor was negative has the lowest anchor
      moved to exactly 0. */
  lemma ShiftTouchesZero(rs: seq<Rect>, lo: Point, ts: seq<Rect>)
    requires lo == Lowest(rs) && ts == ShiftAll(rs, Point(-lo.x, -lo.y))
    ensures (exists i :: 0 <= i < |rs| && rs[i].anchor.x < 0.0) ==>
      exists i :: 0 <= i < |rs| && ts[i].anchor.x == 0.0
    ensures (exists i :: 0 <= i < |rs| && rs[i].anchor.y < 0.0) ==>
      exists i :: 0 <= i < |rs| && ts[i].anchor.y == 0.0
  {
    if exists i :: 0 <= i < |rs| && rs[i].anchor.x < 0.0 {
      var m :| 0 <= m < |rs| && rs[m].anchor.x == LowX(rs);
      assert ts[m].anchor.x == 0.0;
    }
    if exists i :: 0 <= i < |rs| && rs[i].anchor.y < 0.0 {
      var m :| 0 <= m < |rs| && rs[m].anchor.y == LowY(rs);
      assert ts[m].anchor.y == 0.0;
    }
  }

  /** An axis on which no anchor is negative has lowest coordinate 0, so
      the shift leaves it in place. */
  lemma ShiftKeepsNonNegativeAxis(rs: seq<Rect>, lo: Point, ts: seq<Rect>)
    requires lo == Lowest(rs) && ts == ShiftAll(rs, Point(-lo.x, -lo.y))
    ensures (forall i :: 0 <= i < |rs| ==> rs[i].anchor.x >= 0.0) ==>
      forall i :: 0 <= i < |rs| ==> ts[i].anchor.x == rs[i].anchor.x
    ensures (forall i :: 0 <= i < |rs| ==> rs[i].anchor.y >= 0.0) ==>
      forall i :: 0 <= i < |rs| ==> ts[i].anchor.y == rs[i].anchor.y
  {
    if forall i :: 0 <= i < |rs| ==> rs[i].anchor.x >= 0.0 {
      assert LowX(rs) == 0.0;
    }
    if forall i :: 0 <= i < |rs| ==> rs[i].anchor.y >= 0.0 {
      assert LowY(rs) == 0.0;
    }
  }

  /** Translation keeps a layout free of overlaps. */
  lemma TranslateKeepsNoOverlap(rs: seq<Rect>)
    requires NoOverlap(rs)
    ensures NoOverlap(Translate(rs))
  {
    var d := Point(-LowX(rs), -LowY(rs));
    forall i, j | 0 <= i < j < |rs|
      ensures !Intersect(Translate(rs)[i], Translate(rs)[j])
    {
      IntersectTranslation(rs[i], rs[j], d);
    }
  }
}

=== FILE: raster.dfy ===
/** From rooms to grid blocks, and from the spanning tree to corridors:
    rooms become blocks of whole grid squares, the principal blocks are
    painted, each tree edge between two blocks that face each other across
    a horizontal gap gets a corridor, and every other block the corridor
    crosses is painted too. */
module Raster {
  import opened Geometry
  import opened TileMap

  /** The side of a grid square in room units. */
  const Dim: int := 30

  function Floor(v: real): (r: int)
    ensures r as real <= v < r as real + 1.0
  {
    v.Floor
  }

  function Ceil(v: real): (r: int)
    ensures r as real - 1.0 < v <= r as real
  {
    -((-v).Floor)
  }

  /** A room as a block: from the first grid line at or after its anchor to
      the last grid line at or before its far edge, on each axis. */
  function ToBlock(r: Rect): (b: Block)
    ensures (Dim * (b.tl.x - 1)) as real < r.anchor.x <= (Dim * b.tl.x) as real
    ensures (Dim * (b.tl.y - 1)) as real < r.anchor.y <= (Dim * b.tl.y) as real
    ensures (Dim * b.br.x) as real <= r.anchor.x + r.width < (Dim * (b.br.x + 1)) as real
    ensures (Dim * b.br.y) as real <= r.anchor.y + r.height < (Dim * (b.br.y + 1)) as real
  {
    Block(Cell(Ceil(r.anchor.x / 30.0), Ceil(r.anchor.y / 30.0)),
          Cell(Floor((r.anchor.x + r.width) / 30.0), Floor((r.anchor.y + r.height) / 30.0)))
  }

  /** A room at least one grid square wide and high gives a block that
      covers cells, and the block's grid lines lie within the room. */
  lemma ToBlockPaints(r: Rect)
    requires r.width >= 30.0 && r.height >= 30.0
    ensures Paints(ToBlock(r))
  {
    var b := ToBlock(r);
    assert (Dim * b.tl.x) as real < r.anchor.x + 30.0;
    assert (Dim * b.tl.x) as real <= r.anchor.x + r.width;
    assert (Dim * b.tl.y) as real <= r.anchor.y + r.height;
  }

  /** getSign. */
  function Sign(v: int): (s: int)
    ensures s == -1 <==> v < 0
    ensures s == 1 <==> v > 0
    ensures s == 0 <==> v == 0
  {
    if v < 0 then -1 else if v > 0 then 1 else 0
  }

  function AbsInt(v: int): (r: nat)
    ensures r == v || r == -v
  {
    if v < 0 then -v else v
  }

  function MinInt(a: int, b: int): (r: int)
    ensures r <= a && r <= b && (r == a || r == b)
  {
    if a < b then a else b
  }

  function MaxInt(a: int, b: int): (r: int)
    ensures r >= a && r >= b && (r == a || r == b)
  {
    if a > b then a else b
  }

  /** A block whose corners are in order on both axes. */
  predicate Proper(b: Block) {
    b.tl.x <= b.br.x && b.tl.y <= b.br.y
  }

  // ---------------------------------------------------------------------
  // blockOverlap
  // ---------------------------------------------------------------------

  /** blockOverlap as the source writes it. The x test rejects blocks that
      are apart on x; the y test is written with <= where the x test has
      >=, so it rejects blocks whose y-ranges are NOT apart. */
  predicate BlockOverlapAsWritten(b1: Block, b2: Block) {
    if b1.tl.x >= b2.br.x || b2.tl.x >= b1.br.x then false
    else if b1.tl.y <= b2.br.y || b2.tl.y <= b1.br.y then false
    else true
  }

  /** For blocks with tl.y <= br.y the as-written test is never true: two
      proper blocks are never found to overlap, even when they are the same
      block. Its one caller passes the as-written corridor, which is not
      proper; see AbsorbTestAsWritten. */
  lemma BlockOverlapAsWrittenNeverHolds(b1: Block, b2: Block)
    requires b1.tl.y <= b1.br.y && b2.tl.y <= b2.br.y
    ensures !BlockOverlapAsWritten(b1, b2)
  {
  }

  /** blockOverlap with the y test mirroring the x test. */
  predicate BlockOverlap(b1: Block, b2: Block) {
    if b1.tl.x >= b2.br.x || b2.tl.x >= b1.br.x then false
    else if b1.tl.y >= b2.br.y || b2.tl.y >= b1.br.y then false
    else true
  }

  /** The two by two square of cells with top-left cell (x, y) lies in both
      blocks. */
  predicate SharesSquare(b1: Block, b2: Block, x: int, y: int) {
    && InBlock(b1, x, y) && InBlock(b1, x + 1, y + 1)
    && InBlock(b2, x, y) && InBlock(b2, x + 1, y + 1)
  }

  /** A block at least two cells across on both axes. */
  predicate Wide(b: Block) {
    b.tl.x < b.br.x && b.tl.y < b.br.y
  }

  /** Both tests give the same answer with their arguments swapped, for
      every pair of blocks. */
  lemma BlockOverlapSymmetric(b1: Block, b2: Block)
    ensures BlockOverlapAsWritten(b1, b2) == BlockOverlapAsWritten(b2, b1)
    ensures BlockOverlap(b1, b2) == BlockOverlap(b2, b1)
  {
  }

  /** For blocks at least two cells across the corrected test holds exactly
      when they share a two by two square of cells. */
  lemma BlockOverlapMeaning(b1: Block, b2: Block)
    requires Wide(b1) && Wide(b2)
    ensures BlockOverlap(b1, b2) <==> exists x, y :: SharesSquare(b1, b2, x, y)
  {
    if BlockOverlap(b1, b2) {
      var x := MaxInt(b1.tl.x, b2.tl.x);
      var y := MaxInt(b1.tl.y, b2.tl.y);
      assert SharesSquare(b1, b2, x, y);
    }
  }

  // ---------------------------------------------------------------------
  // The horizontal corridor
  // ---------------------------------------------------------------------

  /** The test for a horizontal corridor between b1 and b2: the signs of
      the two vertical differences cancel and the smaller of them is at
      least 2. */
  predicate HorizontalCondition(b1: Block, b2: Block) {
    && Sign(b1.tl.y - b2.br.y) + Sign(b1.br.y - b2.tl.y) == 0
    && MinInt(AbsInt(b1.tl.y - b2.br.y), AbsInt(b1.br.y - b2.tl.y)) + 1 >= 3
  }

  /** For blocks with tl.y <= br.y the condition holds exactly when the
      closed y-ranges overlap, by at least two rows' distance on both
      sides. */
  lemma HorizontalConditionOverlap(b1: Block, b2: Block)
    requires b1.tl.y <= b1.br.y && b2.tl.y <= b2.br.y
    ensures HorizontalCondition(b1, b2) <==> b1.tl.y + 2 <= b2.br.y && b2.tl.y + 2 <= b1.br.y
  {
  }

  /** The columns the corridor runs between: from b1's right side to b2's
      left side when b1 ends before b2 starts, else from b2's right side to
      b1's left side. */
  function GapLeft(b1: Block, b2: Block): int {
    if b1.br.x < b2.tl.x then b1.br.x else b2.br.x
  }

  function GapRight(b1: Block, b2: Block): int {
    if b1.br.x < b2.tl.x then b2.tl.x else b1.tl.x
  }

  /** The corridor block as the source writes it: the y corners take the
      larger value as tl.y and the smaller as br.y. */
  function HorizontalCorridorAsWritten(b1: Block, b2: Block): Block {
    var lx := GapLeft(b1, b2);
    var rx := GapRight(b1, b2);
    if AbsInt(b1.tl.y - b2.br.y) < AbsInt(b1.br.y - b2.tl.y) then
      Block(Cell(lx + 1, MaxInt(b1.tl.y, b2.br.y)), Cell(rx - 1, MinInt(b1.tl.y, b2.br.y)))
    else
      Block(Cell(lx + 1, MaxInt(b2.tl.y, b1.br.y)), Cell(rx - 1, MinInt(b2.tl.y, b1.br.y)))
  }

  /** Whenever the condition holds, the as-written corridor has tl.y > br.y,
      so addBlock paints none of its cells. */
  lemma CorridorAsWrittenPaintsNothing(b1: Block, b2: Block)
    requires HorizontalCondition(b1, b2)
    ensures HorizontalCorridorAsWritten(b1, b2).tl.y > HorizontalCorridorAsWritten(b1, b2).br.y
    ensures !Paints(HorizontalCorridorAsWritten(b1, b2))
  {
  }

  /** The corridor block with the y corners in order. */
  function HorizontalCorridor(b1: Block, b2: Block): Block {
    var lx := GapLeft(b1, b2);
    var rx := GapRight(b1, b2);
    if AbsInt(b1.tl.y - b2.br.y) < AbsInt(b1.br.y - b2.tl.y) then
      Block(Cell(lx + 1, MinInt(b1.tl.y, b2.br.y)), Cell(rx - 1, MaxInt(b1.tl.y, b2.br.y)))
    else
      Block(Cell(lx + 1, MinInt(b2.tl.y, b1.br.y)), Cell(rx - 1, MaxInt(b2.tl.y, b1.br.y)))
  }

  /** Under the condition the corrected corridor is at least three rows
      high, spans the columns strictly inside the gap, lies strictly
      between the blocks when b1 is left of b2, and its rows lie within
      the rows the two blocks span together. */
  lemma CorridorShape(b1: Block, b2: Block)
    requires HorizontalCondition(b1, b2)
    ensures var c := HorizontalCorridor(b1, b2);
            && c.br.y - c.tl.y >= 2
            && c.tl.x == GapLeft(b1, b2) + 1 && c.br.x == GapRight(b1, b2) - 1
            && (b1.br.x < b2.tl.x ==> b1.br.x < c.tl.x && c.br.x < b2.tl.x)
            && (Proper(b1) && Proper(b2) ==>
                  MinInt(b1.tl.y, b2.tl.y) <= c.tl.y && c.br.y <= MaxInt(b1.br.y, b2.br.y))
  {
  }

  /** The absorb loop as written tests the as-written corridor with the
      as-written overlap test. The two inversions partly cancel: for a block
      with tl.y <= br.y the test holds exactly when the corrected corridor
      overlaps the block and the block's rows lie strictly inside the
      corridor's rows. */
  lemma AbsorbTestAsWritten(b1: Block, b2: Block, b: Block)
    requires b.tl.y <= b.br.y
    ensures var c := HorizontalCorridor(b1, b2);
            BlockOverlapAsWritten(HorizontalCorridorAsWritten(b1, b2), b) <==>
              BlockOverlap(c, b) && c.tl.y < b.tl.y && b.br.y < c.br.y
  {
  }

  /** Two blocks facing each other across columns 4 to 19 with rows 0 to 10:
      the as-written corridor is (4, 10)-(19, 0), and the as-written test
      finds it overlapping the block (8, 3)-(12, 6) between them, so that
      block is absorbed. */
  lemma AbsorbAsWrittenExample()
    ensures var b1 := Block(Cell(0, 0), Cell(3, 10));
            var b2 := Block(Cell(20, 0), Cell(23, 10));
            && HorizontalCondition(b1, b2)
            && HorizontalCorridorAsWritten(b1, b2) == Block(Cell(4, 10), Cell(19, 0))
            && BlockOverlapAsWritten(HorizontalCorridorAsWritten(b1, b2), Block(Cell(8, 3), Cell(12, 6)))
  {
  }

  /** A block whose corners are both cells of the grid. */
  predicate CornersInGrid(g: Grid, b: Block) {
    InGrid(g, b.tl.x, b.tl.y) && InGrid(g, b.br.x, b.br.y)
  }

  /** A corridor between two blocks of the grid fits in the grid. */
  lemma CorridorFits(g: Grid, b1: Block, b2: Block)
    requires CornersInGrid(g, b1) && CornersInGrid(g, b2)
    ensures Fits(g, HorizontalCorridor(b1, b2))
  {
  }
}

=== FILE: selection.dfy ===
/** Choosing the principal rooms: the rooms are ranked by area and the
    anchors of the first count of them become the triangulation's input. */
module Selection {
  import opened Wrappers
  import opened Counting
  import opened Geometry
  import opened Placement

  /** The entry guard of genMap: fewer candidates than principal rooms is an
      error. It looks at limit, the number of candidates drawn, not at the
      number of rooms that survive placement. */
  function CheckLimit(limit: nat, count: nat): (r: Result<(), GenError>)
    ensures r.Failure? <==> limit < count
    ensures r.Failure? ==> r.error == LimitBelowCount
  {
    if limit < count then Failure(LimitBelowCount) else Success(())
  }

  /** A ranking of the placed rooms: the room indices in the order the area
      sort leaves them. */
  predicate IsRanking(ranked: seq<nat>, n: nat) {
    |ranked| == n && Distinct(ranked) && forall k :: 0 <= k < |ranked| ==> ranked[k] < n
  }

  /** The principal rooms' anchors, in rank order. Asking for more rooms
      than were placed reads past the end of the ranking. */
  function SelectPrincipal(rooms: seq<Rect>, ranked: seq<nat>, count: nat): (r: Result<seq<Point>, GenError>)
    requires IsRanking(ranked, |rooms|)
    ensures r.Failure? <==> count > |rooms|
    ensures r.Failure? ==> r.error == TooFewPlaced
    ensures r.Success? ==> |r.value| == count
    ensures r.Success? ==> forall i :: 0 <= i < count ==> r.value[i] == rooms[ranked[i]].anchor
  {
    if count > |rooms| then Failure(TooFewPlaced)
    else Success(seq(count, i requires 0 <= i < count => rooms[ranked[i]].anchor))
  }

  /** Two rooms of positive size that do not overlap have different
      anchors. */
  lemma SeparateRoomsDifferentAnchors(a: Rect, b: Rect)
    requires a.width > 0.0 && a.height > 0.0 && b.width > 0.0 && b.height > 0.0
    requires !Intersect(a, b)
    ensures a.anchor != b.anchor
  {
  }

  /** In a layout without overlaps, of rooms of positive size, the selected
      points are pairwise different: the triangulation gets no duplicate
      point. */
  lemma PrincipalPointsDistinct(rooms: seq<Rect>, ranked: seq<nat>, count: nat)
    requires IsRanking(ranked, |rooms|) && count <= |rooms|
    requires NoOverlap(rooms)
    requires forall k :: 0 <= k < |rooms| ==> rooms[k].width > 0.0 && rooms[k].height > 0.0
    ensures SelectPrincipal(rooms, ranked, count).Success?
    ensures Distinct(SelectPrincipal(rooms, ranked, count).value)
  {
    var pts := SelectPrincipal(rooms, ranked, count).value;
    forall i, j | 0 <= i < j < count
      ensures pts[i] != pts[j]
    {
      var a, b := ranked[i], ranked[j];
      assert a != b;
      IntersectSymmetric(rooms[a], rooms[b]);
      assert !Intersect(rooms[a], rooms[b]);
      SeparateRoomsDifferentAnchors(rooms[a], rooms[b]);
    }
  }
}

=== FILE: separation.dfy ===
/** The separation stage of genMap: the intersection graph, the greedy
    removal loop that orders the rooms, and the centroid-steering loop that
    re-inserts them without overlaps. */
module Separation {
  import opened Wrappers
  import opened Counting
  import opened Geometry

  // ---------------------------------------------------------------------
  // Intersection graph
  // ---------------------------------------------------------------------

  /** One element of the deg array: [conflict count, room id]. A count of
      -1 marks a room already pushed on the removal stack. */
  datatype DegEntry = DegEntry(deg: int, id: nat)

  /** Rooms k and x are distinct rooms of the list and intersect. */
  predicate Conflict(rooms: seq<Rect>, k: nat, x: nat) {
    k < |rooms| && x < |rooms| && x != k && Intersect(rooms[k], rooms[x])
  }

  predicate Increasing(s: seq<nat>) {
    forall i, j :: 0 <= i < j < |s| ==> s[i] < s[j]
  }

  /** The rooms below m, other than k, that room k intersects, in increasing
      order. */
  function NeighboursBelow(rooms: seq<Rect>, k: nat, m: nat): (r: seq<nat>)
    requires k < |rooms| && m <= |rooms|
    ensures forall x: nat :: x in r <==> x < m && Conflict(rooms, k, x)
    ensures Increasing(r)
    decreases m
  {
    if m == 0 then []
    else
      var prev := NeighboursBelow(rooms, k, m - 1);
      assert forall i :: 0 <= i < |prev| ==> prev[i] < m - 1 by {
        forall i | 0 <= i < |prev|
          ensures prev[i] < m - 1
        {
          assert prev[i] in prev;
        }
      }
      prev + (if Conflict(rooms, k, m - 1) then [m - 1] else [])
  }

  /** adj[k] as the construction loop leaves it. */
  function Neighbours(rooms: seq<Rect>, k: nat): seq<nat>
    requires k < |rooms|
  {
    NeighboursBelow(rooms, k, |rooms|)
  }

  /** An adjacency list over rooms 0..|adj|-1 that is symmetric, has no
      self-loops and lists each vertex's neighbours in increasing order. */
  predicate WellFormedGraph(adj: seq<seq<nat>>) {
    && (forall k, x :: 0 <= k < |adj| && x in adj[k] ==> x < |adj| && x != k)
    && (forall k, x :: 0 <= k < |adj| && 0 <= x < |adj| && x in adj[k] ==> k in adj[x])
    && (forall k :: 0 <= k < |adj| ==> Increasing(adj[k]))
  }

  lemma NeighbourGraphWellFormed(rooms: seq<Rect>)
    ensures WellFormedGraph(seq(|rooms|, k requires 0 <= k < |rooms| => Neighbours(rooms, k)))
  {
    var adj := seq(|rooms|, k requires 0 <= k < |rooms| => Neighbours(rooms, k));
    forall k, x | 0 <= k < |adj| && 0 <= x < |adj| && x in adj[k]
      ensures k in adj[x]
    {
      IntersectSymmetric(rooms[k], rooms[x]);
    }
  }

  /** Two increasing sequences with the same elements are equal. */
  lemma {:induction false} IncreasingUnique(s: seq<nat>, t: seq<nat>)
    requires Increasing(s) && Increasing(t)
    requires forall x: nat :: x in s <==> x in t
    ensures s == t
  {
    assert |s| > 0 ==> s[0] in t;
    assert |t| > 0 ==> t[0] in s;
    if |s| > 0 {
      assert s[0] == t[0] by {
        assert s[0] in t && t[0] in s;
      }
      forall x
        ensures x in s[1..] <==> x in t[1..]
      {
        assert x in s[1..] <==> x in s && x != s[0];
        assert x in t[1..] <==> x in t && x != t[0];
      }
      IncreasingUnique(s[1..], t[1..]);
      assert s == [s[0]] + s[1..];
      assert t == [t[0]] + t[1..];
    }
  }

  lemma IncreasingAppend(s: seq<nat>, v: nat)
    requires Increasing(s)
    requires forall t :: 0 <= t < |s| ==> s[t] < v
    ensures Increasing(s + [v])
  {
  }

  /** The pair {k, x} has been visited by the construction loop once the
      outer index has reached i and the inner index j. */
  predicate PairDone(k: nat, x: nat, i: nat, j: nat) {
    var a := if k < x then k else x;
    var b := if k < x then x else k;
    a < i || (a == i && b < j)
  }

  /** The nested loop over pairs i < j that fills adj and the conflict counts
      in deg (server.js and generator.js share it). */
  method BuildGraph(rooms: seq<Rect>) returns (adj: seq<seq<nat>>, deg: seq<DegEntry>)
    ensures |adj| == |rooms| && |deg| == |rooms|
    ensures forall k :: 0 <= k < |rooms| ==> adj[k] == Neighbours(rooms, k)
    ensures forall k :: 0 <= k < |rooms| ==> deg[k] == DegEntry(|adj[k]|, k)
  {
    var n := |rooms|;
    deg := seq(n, k requires 0 <= k => DegEntry(0, k));
    adj := seq(n, k => []);
    var i := 0;
    while i < n
      invariant 0 <= i <= n
      invariant ScanInv(rooms, adj, deg, i, i + 1)
    {
      adj, deg := ScanPairsFrom(rooms, i, adj, deg);
      i := i + 1;
    }
    forall k | 0 <= k < n
      ensures adj[k] == Neighbours(rooms, k)
    {
      IncreasingUnique(adj[k], Neighbours(rooms, k));
    }
  }

  /** The state of the pair scan after every pair before (i, j). */
  ghost predicate ScanInv(rooms: seq<Rect>, adj: seq<seq<nat>>, deg: seq<DegEntry>, i: nat, j: nat) {
    && |adj| == |rooms| && |deg| == |rooms|
    && (forall k, x: nat :: 0 <= k < |rooms| ==>
         (x in adj[k] <==> PairDone(k, x, i, j) && Conflict(rooms, k, x)))
    && (forall k :: 0 <= k < |rooms| ==> Increasing(adj[k]))
    && (forall k :: 0 <= k < |rooms| ==> deg[k] == DegEntry(|adj[k]|, k))
  }

  /** Recording the intersecting pair (i, j) on both sides. */
  lemma ScanRecordPair(rooms: seq<Rect>, adj: seq<seq<nat>>, deg: seq<DegEntry>, i: nat, j: nat)
    requires i < j < |rooms| && ScanInv(rooms, adj, deg, i, j)
    requires Intersect(rooms[i], rooms[j])
    ensures ScanInv(rooms, adj[i := adj[i] + [j]][j := adj[j] + [i]],
                    deg[i := DegEntry(deg[i].deg + 1, i)][j := DegEntry(deg[j].deg + 1, j)],
                    i, j + 1)
  {
    IntersectSymmetric(rooms[i], rooms[j]);
    forall t | 0 <= t < |adj[i]|
      ensures adj[i][t] < j
    {
      assert adj[i][t] in adj[i];
    }
    forall t | 0 <= t < |adj[j]|
      ensures adj[j][t] < i
    {
      assert adj[j][t] in adj[j];
    }
    IncreasingAppend(adj[i], j);
    IncreasingAppend(adj[j], i);
  }

  /** One pass of the outer loop: pairs (i, j) for every j after i. */
  method ScanPairsFrom(rooms: seq<Rect>, i: nat, adj0: seq<seq<nat>>, deg0: seq<DegEntry>)
    returns (adj: seq<seq<nat>>, deg: seq<DegEntry>)
    requires i < |rooms| && ScanInv(rooms, adj0, deg0, i, i + 1)
    ensures ScanInv(rooms, adj, deg, i + 1, i + 2)
  {
    var n := |rooms|;
    adj, deg := adj0, deg0;
    var j := i + 1;
    while j < n
      invariant i + 1 <= j <= n
      invariant ScanInv(rooms, adj, deg, i, j)
    {
      if Intersect(rooms[i], rooms[j]) {
        ScanRecordPair(rooms, adj, deg, i, j);
        deg := deg[i := DegEntry(deg[i].deg + 1, i)][j := DegEntry(deg[j].deg + 1, j)];
        adj := adj[i := adj[i] + [j]][j := adj[j] + [i]];
      }
      j := j + 1;
    }
  }

  // ---------------------------------------------------------------------
  // Greedy removal, as written
  // ---------------------------------------------------------------------

  /** perm lists the positions 0..n-1, each once. */
  predicate IsPerm(perm: seq<nat>, n: nat) {
    && |perm| == n
    && (forall k :: 0 <= k < n ==> perm[k] < n)
    && Distinct(perm)
  }

  /** The list rearranged so that position k holds d[perm[k]]. */
  function Permute(d: seq<DegEntry>, perm: seq<nat>): (s: seq<DegEntry>)
    requires IsPerm(perm, |d|)
    ensures |s| == |d|
    ensures forall k :: 0 <= k < |d| ==> s[k] == d[perm[k]]
  {
    seq(|d|, k requires 0 <= k < |d| => d[perm[k]])
  }

  /** No live entry follows a removed (-1) one. */
  predicate RemovedLast(s: seq<DegEntry>) {
    forall i, j :: 0 <= i < j < |s| && s[i].deg == -1 ==> s[j].deg == -1
  }

  /** The effect of deg.sort() followed by deg.reverse(). The elements are
      compared as strings, and "-1,..." sorts before any string that starts
      with a digit, so after the reversal every removed entry comes last.
      That is all the model keeps of the order: sortOrder(d) is the
      rearrangement the two calls apply to d. */
  ghost predicate SortsRemovedLast(sortOrder: seq<DegEntry> -> seq<nat>) {
    forall d: seq<DegEntry> {:trigger sortOrder(d)} ::
      IsPerm(sortOrder(d), |d|) && RemovedLast(Permute(d, sortOrder(d)))
  }

  /** deg[p][0]-- unless deg[p][0] is already -1. */
  function DecrementAt(d: seq<DegEntry>, p: nat): seq<DegEntry>
    requires p < |d|
  {
    if d[p].deg != -1 then d[p := d[p].(deg := d[p].deg - 1)] else d
  }

  /** The for-in loop over adj[v]: each listed number is used as a POSITION
      in the sorted list. */
  function DecrementAllAt(d: seq<DegEntry>, nbrs: seq<nat>): (r: seq<DegEntry>)
    requires forall t :: 0 <= t < |nbrs| ==> nbrs[t] < |d|
    requires Distinct(nbrs)
    ensures |r| == |d|
    ensures forall p :: 0 <= p < |d| ==> r[p].id == d[p].id
    ensures forall p :: 0 <= p < |d| ==>
      r[p].deg == (if p in nbrs && d[p].deg != -1 then d[p].deg - 1 else d[p].deg)
    decreases |nbrs|
  {
    if |nbrs| == 0 then d
    else
      var rest := nbrs[1..];
      DistinctTail(nbrs);
      assert forall p :: p in nbrs <==> p == nbrs[0] || p in rest;
      DecrementAllAt(DecrementAt(d, nbrs[0]), rest)
  }

  /** One pass of the removal loop on the sorted list s: remove the room at
      the front, then lower the count at each position named by one of its
      neighbours' room ids. */
  function RemovalPass(s: seq<DegEntry>, adj: seq<seq<nat>>): (r: seq<DegEntry>)
    requires |s| == |adj| > 0 && s[0].id < |adj|
    requires WellFormedGraph(adj)
    ensures |r| == |s| && r[0].deg == -1
    ensures forall p :: 0 <= p < |s| ==> r[p].id == s[p].id
    ensures forall p :: 0 <= p < |s| && s[p].deg == -1 ==> r[p].deg == -1
    ensures forall p :: 0 < p < |s| && r[p].deg != -1 ==> s[p].deg != -1
  {
    var nbrs := adj[s[0].id];
    assert Distinct(nbrs) by {
      assert Increasing(nbrs);
    }
    assert forall t :: 0 <= t < |nbrs| ==> nbrs[t] < |s| by {
      forall t | 0 <= t < |nbrs|
        ensures nbrs[t] < |s|
      {
        assert nbrs[t] in adj[s[0].id];
      }
    }
    DecrementAllAt(s[0 := s[0].(deg := -1)], nbrs)
  }

  predicate IdsDistinct(s: seq<DegEntry>) {
    forall p, q :: 0 <= p < q < |s| ==> s[p].id != s[q].id
  }

  /** The ids of the entries that are not yet removed. */
  function LiveIds(s: seq<DegEntry>): set<nat> {
    set p | 0 <= p < |s| && s[p].deg != -1 :: s[p].id
  }

  lemma LiveIdsBelow(s: seq<DegEntry>, n: nat)
    requires forall p :: 0 <= p < |s| ==> s[p].id < n
    ensures |LiveIds(s)| <= n
  {
    assert LiveIds(s) <= Range(n);
    RangeCard(n);
    SubsetCard(LiveIds(s), Range(n));
  }

  /** What the removal loop keeps true of the sorted list s and the stack. */
  predicate RemovalInv(s: seq<DegEntry>, stack: seq<nat>, n: nat) {
    && |s| == n
    && (forall p :: 0 <= p < n ==> s[p].id < n)
    && IdsDistinct(s)
    && (forall p :: 0 <= p < n && s[p].id in stack ==> s[p].deg == -1)
    && Distinct(stack)
    && (forall k :: 0 <= k < |stack| ==> stack[k] < n)
    && |stack| + |LiveIds(s)| <= n
  }

  /** A pass followed by the next sort keeps RemovalInv and removes at least
      the front entry. */
  lemma PassKeepsInv(s: seq<DegEntry>, stack: seq<nat>, adj: seq<seq<nat>>, perm: seq<nat>)
    requires RemovalInv(s, stack, |adj|) && |adj| > 0 && s[0].deg != -1
    requires WellFormedGraph(adj) && IsPerm(perm, |adj|)
    ensures RemovalInv(Permute(RemovalPass(s, adj), perm), [s[0].id] + stack, |adj|)
    ensures |LiveIds(Permute(RemovalPass(s, adj), perm))| < |LiveIds(s)|
  {
    var n := |adj|;
    var v := s[0].id;
    assert v in LiveIds(s);
    var stack' := [v] + stack;
    var d := RemovalPass(s, adj);
    var s' := Permute(d, perm);
    assert LiveIds(s') <= LiveIds(s) - {v} by {
      forall p | 0 <= p < n && s'[p].deg != -1
        ensures s'[p].id in LiveIds(s) - {v}
      {
        var q := perm[p];
        assert q != 0 && s[q].deg != -1;
        assert s[q].id != s[0].id;
      }
    }
    SubsetCard(LiveIds(s'), LiveIds(s) - {v});
    forall p, q | 0 <= p < q < n
      ensures s'[p].id != s'[q].id
    {
      assert perm[p] != perm[q];
    }
    forall p | 0 <= p < n && s'[p].id in stack'
      ensures s'[p].deg == -1
    {
      var q := perm[p];
      if s'[p].id == v {
        assert d[q].id == s[0].id;
        assert q == 0;
      } else {
        assert s[q].id in stack;
      }
    }
    assert v !in stack;
  }

  /** The loop at server.js:149-164 as written. Each pass removes one live
      entry, so the loop stops after at most |adj| passes, and the stack it
      builds never names a room twice. It may leave rooms off the stack:
      see LostRoomSecondPass. */
  method RemoveAsWritten(deg0: seq<DegEntry>, adj: seq<seq<nat>>,
                         sortOrder: seq<DegEntry> -> seq<nat>)
    returns (r: Result<seq<nat>, GenError>, last: seq<DegEntry>)
    requires |deg0| == |adj|
    requires forall p :: 0 <= p < |deg0| ==> deg0[p].id == p
    requires WellFormedGraph(adj)
    requires SortsRemovedLast(sortOrder)
    ensures r.Failure? <==> |adj| == 0
    ensures r.Failure? ==> r.error == EmptyRoomList
    ensures r.Success? ==> |r.value| <= |adj| && Distinct(r.value)
    ensures r.Success? ==> forall k :: 0 <= k < |r.value| ==> r.value[k] < |adj|
    ensures r.Success? ==> |last| == |adj| && forall p :: 0 <= p < |last| ==> last[p].deg == -1
  {
    var n := |adj|;
    if n == 0 {
      return Failure(EmptyRoomList), [];
    }
    var s := Permute(deg0, sortOrder(deg0));
    InitialInv(deg0, sortOrder(deg0));
    var stack;
    stack, last := RemovalLoop(s, adj, sortOrder);
    r := Success(stack);
  }

  /** The while (true) loop itself, from the first sorted list on. */
  method RemovalLoop(s0: seq<DegEntry>, adj: seq<seq<nat>>,
                     sortOrder: seq<DegEntry> -> seq<nat>)
    returns (stack: seq<nat>, last: seq<DegEntry>)
    requires |adj| > 0 && RemovalInv(s0, [], |adj|) && RemovedLast(s0)
    requires WellFormedGraph(adj)
    requires SortsRemovedLast(sortOrder)
    ensures RemovalInv(last, stack, |adj|)
    ensures forall p :: 0 <= p < |last| ==> last[p].deg == -1
  {
    var n := |adj|;
    stack := [];
    var s := s0;
    while s[0].deg != -1
      invariant RemovalInv(s, stack, n) && RemovedLast(s)
      decreases |LiveIds(s)|
    {
      var d := RemovalPass(s, adj);
      var perm := sortOrder(d);
      PassKeepsInv(s, stack, adj, perm);
      stack := [s[0].id] + stack;
      s := Permute(d, perm);
    }
    FrontRemovedAllRemoved(s);
    last := s;
  }

  lemma FrontRemovedAllRemoved(s: seq<DegEntry>)
    requires |s| > 0 && RemovedLast(s) && s[0].deg == -1
    ensures forall p :: 0 <= p < |s| ==> s[p].deg == -1
  {
    forall p | 0 < p < |s|
      ensures s[p].deg == -1
    {
      assert 0 < p;
    }
  }

  lemma InitialInv(deg0: seq<DegEntry>, perm: seq<nat>)
    requires forall p :: 0 <= p < |deg0| ==> deg0[p].id == p
    requires IsPerm(perm, |deg0|)
    ensures RemovalInv(Permute(deg0, perm), [], |deg0|)
  {
    var n := |deg0|;
    var s := Permute(deg0, perm);
    LiveIdsBelow(s, n);
    forall p, q | 0 <= p < q < n
      ensures s[p].id != s[q].id
    {
      assert perm[p] != perm[q];
    }
  }

  /** Three rooms: 0 and 1 overlap, 2 is far away. Under JS's string sort
      the first pass sorts [[1,0],[1,1],[0,2]] to [[1,1],[1,0],[0,2]]
      (order [1,0,2]); the second sorts [[-1,1],[1,0],[0,2]] to
      [[1,0],[0,2],[-1,1]] (order [1,2,0]). The second pass decrements
      position 1, which holds room 2, not room 1: room 2 drops to -1
      without ever reaching the front, so the loop stops with the stack
      [0, 1] and room 2 is never placed. */
  function LostRoomRooms(): seq<Rect> {
    [ Rect(Point(0.0, 0.0), 10.0, 10.0),
      Rect(Point(5.0, 5.0), 10.0, 10.0),
      Rect(Point(100.0, 100.0), 10.0, 10.0) ]
  }

  /** The neighbour lists of the three rooms: only rooms 0 and 1 meet. */
  lemma LostRoomGraph()
    ensures Neighbours(LostRoomRooms(), 0) == [1]
    ensures Neighbours(LostRoomRooms(), 1) == [0]
    ensures Neighbours(LostRoomRooms(), 2) == []
    ensures WellFormedGraph([[1], [0], []])
  {
    var rooms := LostRoomRooms();
    LostRoomConflicts();
    assert NeighboursBelow(rooms, 0, 0) == [];
    assert NeighboursBelow(rooms, 0, 1) == [];
    assert NeighboursBelow(rooms, 0, 2) == [1];
    assert NeighboursBelow(rooms, 0, 3) == [1];
    assert NeighboursBelow(rooms, 1, 0) == [];
    assert NeighboursBelow(rooms, 1, 1) == [0];
    assert NeighboursBelow(rooms, 1, 2) == [0];
    assert NeighboursBelow(rooms, 1, 3) == [0];
    assert NeighboursBelow(rooms, 2, 0) == [];
    assert NeighboursBelow(rooms, 2, 1) == [];
    assert NeighboursBelow(rooms, 2, 2) == [];
    assert NeighboursBelow(rooms, 2, 3) == [];
    LostRoomWellFormed();
  }

  lemma LostRoomConflicts()
    ensures Conflict(LostRoomRooms(), 0, 1) && Conflict(LostRoomRooms(), 1, 0)
    ensures !Conflict(LostRoomRooms(), 0, 2) && !Conflict(LostRoomRooms(), 2, 0)
    ensures !Conflict(LostRoomRooms(), 1, 2) && !Conflict(LostRoomRooms(), 2, 1)
    ensures !Conflict(LostRoomRooms(), 0, 0) && !Conflict(LostRoomRooms(), 1, 1)
    ensures !Conflict(LostRoomRooms(), 2, 2)
  {
    var rooms := LostRoomRooms();
    assert Intersect(rooms[0], rooms[1]);
    assert !Intersect(rooms[0], rooms[2]) && !Intersect(rooms[2], rooms[0]);
    assert !Intersect(rooms[1], rooms[2]) && !Intersect(rooms[2], rooms[1]);
  }

  lemma LostRoomWellFormed()
    ensures WellFormedGraph([[1], [0], []])
  {
    var adj: seq<seq<nat>> := [[1], [0], []];
    forall k, x | 0 <= k < |adj| && x in adj[k]
      ensures x < |adj| && x != k
    {
      assert k == 0 ==> x == 1;
      assert k == 1 ==> x == 0;
    }
    forall k, x | 0 <= k < |adj| && 0 <= x < |adj| && x in adj[k]
      ensures k in adj[x]
    {
      assert k == 0 ==> x == 1;
      assert k == 1 ==> x == 0;
    }
  }

  /** First pass: room 1 sorts to the front and is removed; its neighbour
      room 0 sits at position 1 but the decrement goes to position 0,
      which is already removed. */
  lemma LostRoomFirstPass()
    ensures WellFormedGraph([[1], [0], []])
    ensures var s1 := Permute([DegEntry(1, 0), DegEntry(1, 1), DegEntry(0, 2)], [1, 0, 2]);
            && s1 == [DegEntry(1, 1), DegEntry(1, 0), DegEntry(0, 2)]
            && RemovedLast(s1)
            && RemovalPass(s1, [[1], [0], []]) == [DegEntry(-1, 1), DegEntry(1, 0), DegEntry(0, 2)]
  {
    LostRoomWellFormed();
    var s1 := [DegEntry(1, 1), DegEntry(1, 0), DegEntry(0, 2)];
    assert Permute([DegEntry(1, 0), DegEntry(1, 1), DegEntry(0, 2)], [1, 0, 2]) == s1;
    var s0 := s1[0 := DegEntry(-1, 1)];
    assert DecrementAt(s0, 0) == s0;
    assert [0][1..] == [];
    assert DecrementAllAt(s0, [0]) == DecrementAllAt(DecrementAt(s0, 0), []);
  }

  /** Second pass: room 0 is at the front and is removed; its neighbour
      room 1 is already removed, and the decrement at position 1 hits
      room 2, which drops to -1 without ever being stacked. */
  lemma LostRoomSecondPass()
    ensures WellFormedGraph([[1], [0], []])
    ensures var s2 := Permute([DegEntry(-1, 1), DegEntry(1, 0), DegEntry(0, 2)], [1, 2, 0]);
            && s2 == [DegEntry(1, 0), DegEntry(0, 2), DegEntry(-1, 1)]
            && RemovedLast(s2)
            && RemovalPass(s2, [[1], [0], []]) == [DegEntry(-1, 0), DegEntry(-1, 2), DegEntry(-1, 1)]
  {
    LostRoomWellFormed();
    var s2 := [DegEntry(1, 0), DegEntry(0, 2), DegEntry(-1, 1)];
    assert Permute([DegEntry(-1, 1), DegEntry(1, 0), DegEntry(0, 2)], [1, 2, 0]) == s2;
    var s0 := s2[0 := DegEntry(-1, 0)];
    var s1 := [DegEntry(-1, 0), DegEntry(-1, 2), DegEntry(-1, 1)];
    assert DecrementAt(s0, 1) == s1;
    assert [1][1..] == [];
    assert DecrementAllAt(s0, [1]) == DecrementAllAt(DecrementAt(s0, 1), []);
  }

  // ---------------------------------------------------------------------
  // Greedy removal, corrected
  // ---------------------------------------------------------------------

  /** The neighbours in nbrs that are still live under the by-id counts d. */
  function LiveNeighbours(nbrs: seq<nat>, d: seq<int>): set<nat> {
    set w | w in nbrs && w < |d| && d[w] != -1
  }

  /** The neighbour loop with each neighbour's count found by its room id. */
  function DecrementNeighbours(d: seq<int>, nbrs: seq<nat>): (r: seq<int>)
    requires forall t :: 0 <= t < |nbrs| ==> nbrs[t] < |d|
    requires Distinct(nbrs)
    ensures |r| == |d|
    ensures forall u :: 0 <= u < |d| ==>
      r[u] == (if u in nbrs && d[u] != -1 then d[u] - 1 else d[u])
    decreases |nbrs|
  {
    if |nbrs| == 0 then d
    else
      var u := nbrs[0];
      var rest := nbrs[1..];
      DistinctTail(nbrs);
      assert forall w :: w in nbrs <==> w == u || w in rest;
      DecrementNeighbours(if d[u] != -1 then d[u := d[u] - 1] else d, rest)
  }

  predicate HasLive(d: seq<int>) {
    exists u :: 0 <= u < |d| && d[u] != -1
  }

  /** pick(d) names a live room whenever there is one: the front of the
      list once it is sorted with removed rooms last. */
  ghost predicate PicksLive(pick: seq<int> -> nat) {
    forall d: seq<int> {:trigger pick(d)} :: HasLive(d) ==> pick(d) < |d| && d[pick(d)] != -1
  }

  /** What the corrected loop keeps true: removed rooms are exactly the
      stacked ones, and a live room's count is its number of live
      neighbours. */
  predicate ByIdInv(d: seq<int>, stack: seq<nat>, adj: seq<seq<nat>>) {
    && |d| == |adj|
    && (forall u :: 0 <= u < |d| ==> (d[u] == -1 <==> u in stack))
    && (forall u :: 0 <= u < |d| && d[u] != -1 ==> d[u] == |LiveNeighbours(adj[u], d)|)
    && Distinct(stack)
    && (forall k :: 0 <= k < |stack| ==> stack[k] < |adj|)
    && |stack| <= |adj|
  }

  lemma NeighboursInRange(adj: seq<seq<nat>>, v: nat)
    requires WellFormedGraph(adj) && v < |adj|
    ensures forall t :: 0 <= t < |adj[v]| ==> adj[v][t] < |adj|
    ensures Distinct(adj[v])
  {
    forall t | 0 <= t < |adj[v]|
      ensures adj[v][t] < |adj|
    {
      assert adj[v][t] in adj[v];
    }
    assert Increasing(adj[v]);
  }

  /** One removal keeps a room live exactly when it was live and is not
      the removed room. */
  lemma ByIdStepLive(d: seq<int>, stack: seq<nat>, adj: seq<seq<nat>>, v: nat, w: nat)
    requires WellFormedGraph(adj) && ByIdInv(d, stack, adj)
    requires v < |d| && d[v] != -1 && w < |d|
    requires forall t :: 0 <= t < |adj[v]| ==> adj[v][t] < |adj|
    requires Distinct(adj[v])
    ensures var d' := DecrementNeighbours(d[v := -1], adj[v]);
            d'[w] != -1 <==> d[w] != -1 && w != v
  {
    if w != v && w in adj[v] && d[w] != -1 {
      assert v in adj[w];
      assert v in LiveNeighbours(adj[w], d);
    }
  }

  lemma ByIdStepCount(d: seq<int>, stack: seq<nat>, adj: seq<seq<nat>>, v: nat, u: nat)
    requires WellFormedGraph(adj) && ByIdInv(d, stack, adj)
    requires v < |d| && d[v] != -1 && u < |d|
    requires forall t :: 0 <= t < |adj[v]| ==> adj[v][t] < |adj|
    requires Distinct(adj[v])
    requires var d' := DecrementNeighbours(d[v := -1], adj[v]);
             forall w :: 0 <= w < |d| ==> (d'[w] != -1 <==> d[w] != -1 && w != v)
    requires DecrementNeighbours(d[v := -1], adj[v])[u] != -1
    ensures var d' := DecrementNeighbours(d[v := -1], adj[v]);
            d'[u] == |LiveNeighbours(adj[u], d')|
  {
    var d' := DecrementNeighbours(d[v := -1], adj[v]);
    assert LiveNeighbours(adj[u], d') == LiveNeighbours(adj[u], d) - {v};
    if u in adj[v] {
      assert v in adj[u];
      assert v in LiveNeighbours(adj[u], d);
    } else {
      assert v !in adj[u];
    }
  }

  lemma ByIdStep(d: seq<int>, stack: seq<nat>, adj: seq<seq<nat>>, v: nat)
    requires WellFormedGraph(adj) && ByIdInv(d, stack, adj)
    requires v < |d| && d[v] != -1
    requires forall t :: 0 <= t < |adj[v]| ==> adj[v][t] < |adj|
    requires Distinct(adj[v])
    ensures ByIdInv(DecrementNeighbours(d[v := -1], adj[v]), [v] + stack, adj)
  {
    var d' := DecrementNeighbours(d[v := -1], adj[v]);
    ByIdStepLiveAll(d, stack, adj, v);
    ByIdStepCountAll(d, stack, adj, v);
    ByIdStepRemoved(d, d', stack, v);
    assert v !in stack;
    StackPush(stack, v, |adj|);
  }

  lemma ByIdStepLiveAll(d: seq<int>, stack: seq<nat>, adj: seq<seq<nat>>, v: nat)
    requires WellFormedGraph(adj) && ByIdInv(d, stack, adj)
    requires v < |d| && d[v] != -1
    requires forall t :: 0 <= t < |adj[v]| ==> adj[v][t] < |adj|
    requires Distinct(adj[v])
    ensures var d' := DecrementNeighbours(d[v := -1], adj[v]);
            forall w :: 0 <= w < |d| ==> (d'[w] != -1 <==> d[w] != -1 && w != v)
  {
    forall w | 0 <= w < |d|
      ensures var d' := DecrementNeighbours(d[v := -1], adj[v]);
              d'[w] != -1 <==> d[w] != -1 && w != v
    {
      ByIdStepLive(d, stack, adj, v, w);
    }
  }

  lemma ByIdStepCountAll(d: seq<int>, stack: seq<nat>, adj: seq<seq<nat>>, v: nat)
    requires WellFormedGraph(adj) && ByIdInv(d, stack, adj)
    requires v < |d| && d[v] != -1
    requires forall t :: 0 <= t < |adj[v]| ==> adj[v][t] < |adj|
    requires Distinct(adj[v])
    requires var d' := DecrementNeighbours(d[v := -1], adj[v]);
             forall w :: 0 <= w < |d| ==> (d'[w] != -1 <==> d[w] != -1 && w != v)
    ensures var d' := DecrementNeighbours(d[v := -1], adj[v]);
            forall u :: 0 <= u < |d'| && d'[u] != -1 ==> d'[u] == |LiveNeighbours(adj[u], d')|
  {
    var d' := DecrementNeighbours(d[v := -1], adj[v]);
    forall u | 0 <= u < |d'| && d'[u] != -1
      ensures d'[u] == |LiveNeighbours(adj[u], d')|
    {
      ByIdStepCount(d, stack, adj, v, u);
    }
  }

  /** The removed rooms after a step are the stacked ones plus v. */
  lemma ByIdStepRemoved(d: seq<int>, d': seq<int>, stack: seq<nat>, v: nat)
    requires |d'| == |d| && v < |d|
    requires forall u :: 0 <= u < |d| ==> (d[u] == -1 <==> u in stack)
    requires forall w :: 0 <= w < |d| ==> (d'[w] != -1 <==> d[w] != -1 && w != v)
    ensures forall u :: 0 <= u < |d'| ==> (d'[u] == -1 <==> u in [v] + stack)
  {
  }

  /** Pushing a new id below n keeps the stack distinct and no longer
      than n. */
  lemma StackPush(stack: seq<nat>, v: nat, n: nat)
    requires Distinct(stack) && (forall k :: 0 <= k < |stack| ==> stack[k] < n)
    requires v < n && v !in stack
    ensures Distinct([v] + stack) && (forall k :: 0 <= k < |stack| + 1 ==> ([v] + stack)[k] < n)
    ensures |[v] + stack| <= n
  {
    DistinctBelow([v] + stack, n);
  }

  lemma ByIdStart(deg0: seq<DegEntry>, adj: seq<seq<nat>>)
    requires WellFormedGraph(adj) && |deg0| == |adj|
    requires forall p :: 0 <= p < |deg0| ==> deg0[p] == DegEntry(|adj[p]|, p)
    ensures ByIdInv(seq(|adj|, u requires 0 <= u < |adj| => deg0[u].deg), [], adj)
  {
    var d := seq(|adj|, u requires 0 <= u < |adj| => deg0[u].deg);
    forall u | 0 <= u < |adj|
      ensures d[u] == |LiveNeighbours(adj[u], d)|
    {
      NeighboursInRange(adj, u);
      assert LiveNeighbours(adj[u], d) == Elems(adj[u]);
      ElemsCard(adj[u]);
    }
  }

  /** The removal loop with the decrement addressed by room id. With the
      id as the address, an entry's position in the sorted list no longer
      matters, so the counts are kept indexed by room id and the sort
      reduces to picking a live room. Every room then reaches the stack:
      the stack is a permutation of the room ids. */
  method RemoveAll(deg0: seq<DegEntry>, adj: seq<seq<nat>>, pick: seq<int> -> nat)
    returns (r: Result<seq<nat>, GenError>)
    requires |deg0| == |adj|
    requires forall p :: 0 <= p < |deg0| ==> deg0[p] == DegEntry(|adj[p]|, p)
    requires WellFormedGraph(adj)
    requires PicksLive(pick)
    ensures r.Failure? <==> |adj| == 0
    ensures r.Failure? ==> r.error == EmptyRoomList
    ensures r.Success? ==> |r.value| == |adj| && Distinct(r.value)
    ensures r.Success? ==> forall k :: 0 <= k < |r.value| ==> r.value[k] < |adj|
  {
    var n := |adj|;
    if n == 0 {
      return Failure(EmptyRoomList);
    }
    var d := seq(n, u requires 0 <= u < n => deg0[u].deg);
    ByIdStart(deg0, adj);
    var stack := RemoveByIdLoop(d, adj, pick);
    r := Success(stack);
  }

  method RemoveByIdLoop(d0: seq<int>, adj: seq<seq<nat>>, pick: seq<int> -> nat)
    returns (stack: seq<nat>)
    requires WellFormedGraph(adj) && ByIdInv(d0, [], adj)
    requires PicksLive(pick)
    ensures |stack| == |adj| && Distinct(stack)
    ensures forall k :: 0 <= k < |stack| ==> stack[k] < |adj|
  {
    var n := |adj|;
    var d := d0;
    stack := [];
    var v: nat := pick(d);
    while v < |d| && d[v] != -1
      invariant |d| == n && ByIdInv(d, stack, adj)
      invariant HasLive(d) ==> v < |d| && d[v] != -1
      decreases n - |stack|
    {
      NeighboursInRange(adj, v);
      ByIdStep(d, stack, adj, v);
      stack := [v] + stack;
      d := DecrementNeighbours(d[v := -1], adj[v]);
      v := pick(d);
    }
    ByIdDone(d, stack, adj);
  }

  lemma ByIdDone(d: seq<int>, stack: seq<nat>, adj: seq<seq<nat>>)
    requires ByIdInv(d, stack, adj) && !HasLive(d)
    ensures |stack| == |adj|
  {
    assert forall u :: 0 <= u < |d| ==> u in stack by {
      forall u | 0 <= u < |d|
        ensures u in stack
      {
        assert d[u] == -1;
      }
    }
    DistinctBelow(stack, |adj|);
  }
}

=== FILE: spanning.dfy ===
/** The corridor plan: a weight matrix over the principal rooms built from
    the triangulation's triangles, and Prim's algorithm over that dense
    matrix, with 1000000000 standing for "no edge". */
module Spanning {
  import opened Wrappers
  import opened Counting
  import opened Geometry

  /** The weight of a missing edge, and the initial key of every node. */
  const Sentinel: real := 1000000000.0

  /** The distance between two points, with the square root passed in. */
  function Dist(a: Point, b: Point, sqrt: real -> real): real {
    sqrt((a.x - b.x) * (a.x - b.x) + (a.y - b.y) * (a.y - b.y))
  }

  lemma DistSymmetric(a: Point, b: Point, sqrt: real -> real)
    ensures Dist(a, b, sqrt) == Dist(b, a, sqrt)
  {
    assert (a.x - b.x) * (a.x - b.x) == (b.x - a.x) * (b.x - a.x);
    assert (a.y - b.y) * (a.y - b.y) == (b.y - a.y) * (b.y - a.y);
  }

  predicate Square(w: seq<seq<real>>, n: nat) {
    |w| == n && forall u :: 0 <= u < n ==> |w[u]| == n
  }

  /** (u, v) is one of the six ordered pairs of distinct corners of the
      triangle (a, b, c). */
  predicate CornerPair(a: nat, b: nat, c: nat, u: nat, v: nat) {
    || (u == a && v == b) || (u == a && v == c)
    || (u == b && v == a) || (u == b && v == c)
    || (u == c && v == a) || (u == c && v == b)
  }

  predicate InTriangle(tri: seq<nat>, t: nat, u: nat, v: nat)
    requires 3 * t + 2 < |tri|
  {
    CornerPair(tri[3 * t], tri[3 * t + 1], tri[3 * t + 2], u, v)
  }

  /** Some triangle before the t-th has u and v as two of its corners. */
  predicate SharedBefore(tri: seq<nat>, t: nat, u: nat, v: nat)
    requires 3 * t <= |tri|
  {
    exists s :: 0 <= s < t && InTriangle(tri, s, u, v)
  }

  predicate SharesTriangle(tri: seq<nat>, u: nat, v: nat)
    requires |tri| % 3 == 0
  {
    SharedBefore(tri, |tri| / 3, u, v)
  }

  /** One matrix entry overwritten. */
  function Put(w: seq<seq<real>>, i: nat, j: nat, x: real): (r: seq<seq<real>>)
    requires i < |w| && j < |w[i]|
    ensures |r| == |w| && forall u :: 0 <= u < |w| ==> |r[u]| == |w[u]|
    ensures forall u, v :: 0 <= u < |w| && 0 <= v < |w[u]| ==>
      r[u][v] == (if u == i && v == j then x else w[u][v])
  {
    w[i := w[i][j := x]]
  }

  /** The six writes made for one triangle (a, b, c): each entry gets the
      distance from its row's point to its column's point. */
  function AddTriangle(w: seq<seq<real>>, n: nat, a: nat, b: nat, c: nat,
                       points: seq<Point>, sqrt: real -> real): (r: seq<seq<real>>)
    requires Square(w, n) && a < n && b < n && c < n && |points| == n
    ensures Square(r, n)
    ensures forall u, v :: 0 <= u < n && 0 <= v < n ==>
      r[u][v] == (if CornerPair(a, b, c, u, v) then Dist(points[u], points[v], sqrt) else w[u][v])
  {
    var w1 := Put(w, a, b, Dist(points[a], points[b], sqrt));
    var w2 := Put(w1, a, c, Dist(points[a], points[c], sqrt));
    var w3 := Put(w2, b, a, Dist(points[b], points[a], sqrt));
    var w4 := Put(w3, b, c, Dist(points[b], points[c], sqrt));
    var w5 := Put(w4, c, a, Dist(points[c], points[a], sqrt));
    Put(w5, c, b, Dist(points[c], points[b], sqrt))
  }

  /** Entry (u, v) once the first t triangles are written: the distance if
      one of them has u and v as corners, the sentinel otherwise. */
  predicate EntryAfter(w: seq<seq<real>>, points: seq<Point>, tri: seq<nat>, t: nat,
                       sqrt: real -> real, u: nat, v: nat)
    requires 3 * t <= |tri| && Square(w, |points|) && u < |points| && v < |points|
  {
    w[u][v] == (if SharedBefore(tri, t, u, v) then Dist(points[u], points[v], sqrt) else Sentinel)
  }

  /** The matrix once the first t triangles are written. */
  predicate WeightsAfter(w: seq<seq<real>>, points: seq<Point>, tri: seq<nat>, t: nat,
                         sqrt: real -> real)
    requires 3 * t <= |tri|
  {
    && Square(w, |points|)
    && forall u: nat, v: nat :: u < |points| && v < |points| ==> EntryAfter(w, points, tri, t, sqrt, u, v)
  }

  lemma AddTriangleStep(w: seq<seq<real>>, points: seq<Point>, tri: seq<nat>, t: nat,
                        sqrt: real -> real)
    requires 3 * t + 3 <= |tri|
    requires forall k :: 0 <= k < |tri| ==> tri[k] < |points|
    requires WeightsAfter(w, points, tri, t, sqrt)
    ensures WeightsAfter(AddTriangle(w, |points|, tri[3 * t], tri[3 * t + 1], tri[3 * t + 2], points, sqrt),
                         points, tri, t + 1, sqrt)
  {
    var w' := AddTriangle(w, |points|, tri[3 * t], tri[3 * t + 1], tri[3 * t + 2], points, sqrt);
    var next := t + 1;
    forall u: nat, v: nat | u < |points| && v < |points|
      ensures EntryAfter(w', points, tri, next, sqrt, u, v)
    {
      SharedBeforeNext(tri, t, u, v);
      assert EntryAfter(w, points, tri, t, sqrt, u, v);
    }
  }

  /** The adjacency matrix of the principal rooms: every entry starts at the
      sentinel, and each triangle sets the entries between its corners to
      their distance. */
  method BuildWeights(points: seq<Point>, tri: seq<nat>, sqrt: real -> real)
    returns (w: seq<seq<real>>)
    requires |tri| % 3 == 0
    requires forall k :: 0 <= k < |tri| ==> tri[k] < |points|
    ensures Square(w, |points|)
    ensures forall u: nat, v: nat :: u < |points| && v < |points| ==>
      w[u][v] == (if SharesTriangle(tri, u, v) then Dist(points[u], points[v], sqrt) else Sentinel)
  {
    var n := |points|;
    w := seq(n, u => seq(n, v => Sentinel));
    var t := 0;
    while t < |tri| / 3
      invariant 0 <= t <= |tri| / 3
      invariant WeightsAfter(w, points, tri, t, sqrt)
    {
      AddTriangleStep(w, points, tri, t, sqrt);
      w := AddTriangle(w, n, tri[3 * t], tri[3 * t + 1], tri[3 * t + 2], points, sqrt);
      t := t + 1;
    }
    forall u: nat, v: nat | u < n && v < n
      ensures w[u][v] == (if SharesTriangle(tri, u, v) then Dist(points[u], points[v], sqrt) else Sentinel)
    {
      assert EntryAfter(w, points, tri, t, sqrt, u, v);
    }
  }

  lemma SharedBeforeNext(tri: seq<nat>, t: nat, u: nat, v: nat)
    requires 3 * t + 2 < |tri|
    ensures SharedBefore(tri, t + 1, u, v) <==> SharedBefore(tri, t, u, v) || InTriangle(tri, t, u, v)
  {
    if SharedBefore(tri, t + 1, u, v) && !InTriangle(tri, t, u, v) {
      var s :| 0 <= s < t + 1 && InTriangle(tri, s, u, v);
      assert s < t;
    }
    if InTriangle(tri, t, u, v) {
      assert 0 <= t < t + 1;
    }
    if SharedBefore(tri, t, u, v) {
      var s :| 0 <= s < t && InTriangle(tri, s, u, v);
      assert s < t + 1;
    }
  }

  /** The matrix is symmetric. */
  lemma WeightsSymmetric(points: seq<Point>, tri: seq<nat>, sqrt: real -> real,
                         w: seq<seq<real>>)
    requires |tri| % 3 == 0 && Square(w, |points|)
    requires forall u: nat, v: nat :: u < |points| && v < |points| ==>
      w[u][v] == (if SharesTriangle(tri, u, v) then Dist(points[u], points[v], sqrt) else Sentinel)
    ensures forall u, v :: 0 <= u < |points| && 0 <= v < |points| ==> w[u][v] == w[v][u]
  {
    forall u, v | 0 <= u < |points| && 0 <= v < |points|
      ensures w[u][v] == w[v][u]
    {
      DistSymmetric(points[u], points[v], sqrt);
      if SharesTriangle(tri, u, v) {
        var s :| 0 <= s < |tri| / 3 && InTriangle(tri, s, u, v);
        assert InTriangle(tri, s, v, u);
      }
      if SharesTriangle(tri, v, u) {
        var s :| 0 <= s < |tri| / 3 && InTriangle(tri, s, v, u);
        assert InTriangle(tri, s, u, v);
      }
    }
  }

  // ---------------------------------------------------------------------
  // Prim's algorithm
  // ---------------------------------------------------------------------

  /** order lists distinct nodes below n: the nodes in the order they were
      selected. */
  predicate SelectionOrder(order: seq<nat>, n: nat) {
    Distinct(order) && forall k :: 0 <= k < |order| ==> order[k] < n
  }

  /** The tree that mst records: the first selected node has no entry and
      every later one has exactly one, naming a node selected before it,
      over an edge of finite weight. */
  predicate TreeEdges(w: seq<seq<real>>, n: nat, mst: seq<seq<nat>>, order: seq<nat>)
    requires Square(w, n) && |mst| == n && SelectionOrder(order, n)
  {
    && (|order| > 0 ==> mst[order[0]] == [])
    && forall k :: 1 <= k < |order| ==>
         && |mst[order[k]]| == 1
         && mst[order[k]][0] in order[..k]
         && mst[order[k]][0] < n
         && w[mst[order[k]][0]][order[k]] < Sentinel
  }

  /** Each tree edge is a lightest edge leaving the nodes selected before
      its lower end: the cut property behind Prim's algorithm. */
  predicate LightEdges(w: seq<seq<real>>, n: nat, mst: seq<seq<nat>>, order: seq<nat>)
    requires Square(w, n) && |mst| == n && SelectionOrder(order, n) && TreeEdges(w, n, mst, order)
  {
    forall k, x, y :: 1 <= k < |order| && x in order[..k] && 0 <= y < n && y !in order[..k] ==>
      w[mst[order[k]][0]][order[k]] <= w[x][y]
  }

  /** The lowest key among the unselected nodes, ties going to the lower
      index; -1 when every node is selected. */
  method PickNext(selected: seq<bool>, key: seq<real>) returns (v: int)
    requires |selected| == |key|
    ensures v == -1 <==> forall j :: 0 <= j < |selected| ==> selected[j]
    ensures v != -1 ==> 0 <= v < |selected| && !selected[v]
    ensures v != -1 ==> forall j :: 0 <= j < |selected| && !selected[j] ==> key[v] <= key[j]
    ensures v != -1 ==> forall j :: 0 <= j < v && !selected[j] ==> key[v] < key[j]
  {
    v := -1;
    var j := 0;
    while j < |selected|
      invariant 0 <= j <= |selected|
      invariant v == -1 <==> forall i :: 0 <= i < j ==> selected[i]
      invariant v != -1 ==> 0 <= v < j && !selected[v]
      invariant v != -1 ==> forall i :: 0 <= i < j && !selected[i] ==> key[v] <= key[i]
      invariant v != -1 ==> forall i :: 0 <= i < v && !selected[i] ==> key[v] < key[i]
    {
      if !selected[j] && v == -1 {
        v := j;
      } else if !selected[j] && key[j] < key[v] {
        v := j;
      }
      j := j + 1;
    }
  }

  /** The key update after v is selected: every node, selected or not,
      whose key exceeds its edge from v takes that edge. */
  method Relax(w: seq<seq<real>>, n: nat, v: nat, key0: seq<real>, to0: seq<int>)
    returns (key: seq<real>, to: seq<int>)
    requires Square(w, n) && v < n && |key0| == n && |to0| == n
    ensures |key| == n && |to| == n
    ensures forall u :: 0 <= u < n ==>
      if w[v][u] < key0[u] then key[u] == w[v][u] && to[u] == v
      else key[u] == key0[u] && to[u] == to0[u]
  {
    key, to := key0, to0;
    var u := 0;
    while u < n
      invariant 0 <= u <= n && |key| == n && |to| == n
      invariant forall i :: 0 <= i < u ==>
        if w[v][i] < key0[i] then key[i] == w[v][i] && to[i] == v
        else key[i] == key0[i] && to[i] == to0[i]
      invariant forall i :: u <= i < n ==> key[i] == key0[i] && to[i] == to0[i]
    {
      if w[v][u] < key[u] {
        key := key[u := w[v][u]];
        to := to[u := v];
      }
      u := u + 1;
    }
  }

  /** What holds between the passes of Prim's outer loop. */
  predicate PrimInv(w: seq<seq<real>>, n: nat, selected: seq<bool>, key: seq<real>,
                    to: seq<int>, mst: seq<seq<nat>>, order: seq<nat>)
  {
    && Square(w, n) && |selected| == n && |key| == n && |to| == n && |mst| == n
    && SelectionOrder(order, n)
    && (forall u :: 0 <= u < n ==> (selected[u] <==> u in order))
    && (forall u :: 0 <= u < n ==> key[u] <= Sentinel)
    && (forall u, x :: 0 <= u < n && !selected[u] && x in order ==> key[u] <= w[x][u])
    && (forall u :: 0 <= u < n && !selected[u] && to[u] != -1 ==>
          0 <= to[u] < n && selected[to[u]] && key[u] == w[to[u]][u] && key[u] < Sentinel)
    && (forall u :: 0 < u < n && !selected[u] && to[u] == -1 ==> key[u] == Sentinel)
    && (n > 0 && |order| == 0 ==> key[0] == 0.0 && to[0] == -1)
    && (|order| > 0 ==> order[0] == 0)
    && (forall u :: 0 <= u < n && !selected[u] ==> mst[u] == [])
    && TreeEdges(w, n, mst, order)
    && LightEdges(w, n, mst, order)
  }

  /** Selecting the lowest-key node v keeps the invariant. */
  lemma PrimStep(w: seq<seq<real>>, n: nat, selected: seq<bool>, key: seq<real>,
                 to: seq<int>, mst: seq<seq<nat>>, order: seq<nat>, v: nat,
                 key': seq<real>, to': seq<int>)
    requires PrimInv(w, n, selected, key, to, mst, order)
    requires v < n && !selected[v] && key[v] != Sentinel
    requires forall j :: 0 <= j < n && !selected[j] ==> key[v] <= key[j]
    requires |key'| == n && |to'| == n
    requires forall u :: 0 <= u < n ==>
      if w[v][u] < key[u] then key'[u] == w[v][u] && to'[u] == v
      else key'[u] == key[u] && to'[u] == to[u]
    ensures var mst' := if to[v] != -1 then mst[v := mst[v] + [to[v] as nat]] else mst;
            PrimInv(w, n, selected[v := true], key', to', mst', order + [v])
  {
    var mst' := if to[v] != -1 then mst[v := mst[v] + [to[v] as nat]] else mst;
    var order' := order + [v];
    var selected' := selected[v := true];
    assert v !in order;
    assert SelectionOrder(order', n);
    if |order| == 0 {
      assert v == 0;
    } else {
      assert order'[0] == 0;
      assert v != 0;
      assert to[v] != -1;
    }
    PrimStepTree(w, n, selected, key, to, mst, order, v);
    PrimStepKeys(w, n, selected, key, to, mst, order, v, key', to');
  }

  lemma PrimStepTree(w: seq<seq<real>>, n: nat, selected: seq<bool>, key: seq<real>,
                     to: seq<int>, mst: seq<seq<nat>>, order: seq<nat>, v: nat)
    requires PrimInv(w, n, selected, key, to, mst, order)
    requires v < n && !selected[v] && key[v] != Sentinel
    requires forall j :: 0 <= j < n && !selected[j] ==> key[v] <= key[j]
    requires |order| == 0 ==> v == 0
    requires |order| > 0 ==> to[v] != -1
    ensures var mst' := if to[v] != -1 then mst[v := mst[v] + [to[v] as nat]] else mst;
            && SelectionOrder(order + [v], n)
            && (forall u :: 0 <= u < n && !selected[v := true][u] ==> mst'[u] == [])
            && TreeEdges(w, n, mst', order + [v])
            && LightEdges(w, n, mst', order + [v])
  {
    var mst' := if to[v] != -1 then mst[v := mst[v] + [to[v] as nat]] else mst;
    var order' := order + [v];
    assert v !in order;
    assert SelectionOrder(order', n);
    assert mst[v] == [];
    UpdateKeepsOthers(mst, order, v, mst'[v]);
    assert mst' == mst[v := mst'[v]];
    var t: nat := if to[v] != -1 then to[v] as nat else 0;
    if |order| > 0 {
      PrimStepNewEdge(w, n, selected, key, to, mst, order, v);
      assert mst'[v] == [t];
    } else {
      assert mst'[v] == [];
    }
    PrimStepTreeEdges(w, n, mst, order, mst', v, t);
    PrimStepLight(w, n, mst, order, mst', v, t);
  }

  /** The tree records survive the step: earlier nodes keep their entries
      and v's entry is the edge to t, a node selected before it. */
  lemma PrimStepTreeEdges(w: seq<seq<real>>, n: nat, mst: seq<seq<nat>>, order: seq<nat>,
                          mst': seq<seq<nat>>, v: nat, t: nat)
    requires Square(w, n) && |mst| == n && |mst'| == n && v < n
    requires SelectionOrder(order, n) && SelectionOrder(order + [v], n)
    requires TreeEdges(w, n, mst, order)
    requires forall k :: 0 <= k < |order| ==> mst'[order[k]] == mst[order[k]]
    requires |order| == 0 ==> mst'[v] == []
    requires |order| > 0 ==> mst'[v] == [t] && t in order && t < n && w[t][v] < Sentinel
    ensures TreeEdges(w, n, mst', order + [v])
  {
    var order' := order + [v];
    PrefixesKept(order, v);
    if |order| > 0 {
      assert order'[0] == order[0];
    }
    forall k | 1 <= k < |order'|
      ensures |mst'[order'[k]]| == 1 && mst'[order'[k]][0] in order'[..k]
      ensures mst'[order'[k]][0] < n && w[mst'[order'[k]][0]][order'[k]] < Sentinel
    {
      if k < |order| {
        assert order'[k] == order[k];
      } else {
        assert order'[k] == v && order'[..k] == order;
      }
    }
  }

  /** The cut property survives the step: earlier edges keep their cuts,
      and the new edge is light across the cut of the nodes before v. */
  lemma PrimStepLight(w: seq<seq<real>>, n: nat, mst: seq<seq<nat>>, order: seq<nat>,
                      mst': seq<seq<nat>>, v: nat, t: nat)
    requires Square(w, n) && |mst| == n && |mst'| == n && v < n
    requires SelectionOrder(order, n) && SelectionOrder(order + [v], n)
    requires TreeEdges(w, n, mst, order) && LightEdges(w, n, mst, order)
    requires TreeEdges(w, n, mst', order + [v])
    requires forall k :: 0 <= k < |order| ==> mst'[order[k]] == mst[order[k]]
    requires |order| > 0 ==> mst'[v] == [t] && t < n
    requires |order| > 0 ==> forall x, y :: x in order && 0 <= y < n && y !in order ==> w[t][v] <= w[x][y]
    ensures LightEdges(w, n, mst', order + [v])
  {
    var order' := order + [v];
    PrefixesKept(order, v);
    forall k, x, y | 1 <= k < |order'| && x in order'[..k] && 0 <= y < n && y !in order'[..k]
      ensures w[mst'[order'[k]][0]][order'[k]] <= w[x][y]
    {
      if k < |order| {
        assert order'[k] == order[k];
      } else {
        assert order'[k] == v && order'[..k] == order;
      }
    }
  }

  lemma UpdateKeepsOthers(mst: seq<seq<nat>>, order: seq<nat>, v: nat, e: seq<nat>)
    requires v < |mst| && v !in order
    requires forall k :: 0 <= k < |order| ==> order[k] < |mst|
    ensures forall k :: 0 <= k < |order| ==> mst[v := e][order[k]] == mst[order[k]]
  {
  }

  lemma PrefixesKept(order: seq<nat>, v: nat)
    ensures forall k :: 0 <= k <= |order| ==> (order + [v])[..k] == order[..k]
  {
  }

  /** The edge v takes is finite and light across the cut of the nodes
      selected so far. */
  lemma PrimStepNewEdge(w: seq<seq<real>>, n: nat, selected: seq<bool>, key: seq<real>,
                        to: seq<int>, mst: seq<seq<nat>>, order: seq<nat>, v: nat)
    requires PrimInv(w, n, selected, key, to, mst, order)
    requires v < n && !selected[v] && key[v] != Sentinel
    requires forall j :: 0 <= j < n && !selected[j] ==> key[v] <= key[j]
    requires to[v] != -1
    ensures 0 <= to[v] < n && to[v] in order && w[to[v]][v] < Sentinel
    ensures forall x, y :: x in order && 0 <= y < n && y !in order ==> w[to[v]][v] <= w[x][y]
  {
    forall x, y | x in order && 0 <= y < n && y !in order
      ensures w[to[v]][v] <= w[x][y]
    {
      assert !selected[y];
    }
  }

  lemma PrimStepKeys(w: seq<seq<real>>, n: nat, selected: seq<bool>, key: seq<real>,
                     to: seq<int>, mst: seq<seq<nat>>, order: seq<nat>, v: nat,
                     key': seq<real>, to': seq<int>)
    requires PrimInv(w, n, selected, key, to, mst, order)
    requires v < n && !selected[v]
    requires |key'| == n && |to'| == n
    requires forall u :: 0 <= u < n ==>
      if w[v][u] < key[u] then key'[u] == w[v][u] && to'[u] == v
      else key'[u] == key[u] && to'[u] == to[u]
    ensures var selected' := selected[v := true];
            var order' := order + [v];
            && (forall u :: 0 <= u < n ==> (selected'[u] <==> u in order'))
            && (forall u :: 0 <= u < n ==> key'[u] <= Sentinel)
            && (forall u, x :: 0 <= u < n && !selected'[u] && x in order' ==> key'[u] <= w[x][u])
            && (forall u :: 0 <= u < n && !selected'[u] && to'[u] != -1 ==>
                  0 <= to'[u] < n && selected'[to'[u]] && key'[u] == w[to'[u]][u] && key'[u] < Sentinel)
            && (forall u :: 0 < u < n && !selected'[u] && to'[u] == -1 ==> key'[u] == Sentinel)
  {
  }

  lemma SomeUnselected(selected: seq<bool>, order: seq<nat>, n: nat)
    requires |selected| == n && SelectionOrder(order, n) && |order| < n
    requires forall u :: 0 <= u < n ==> (selected[u] <==> u in order)
    ensures exists j :: 0 <= j < n && !selected[j]
  {
    if forall j :: 0 <= j < n ==> selected[j] {
      DistinctBelow(order, n);
    }
  }

  /** When the lowest key is the sentinel, no finite edge leaves the
      selected nodes: the matrix is disconnected across that cut. */
  lemma PrimCut(w: seq<seq<real>>, n: nat, selected: seq<bool>, key: seq<real>,
                to: seq<int>, mst: seq<seq<nat>>, order: seq<nat>, v: nat)
    requires PrimInv(w, n, selected, key, to, mst, order)
    requires v < n && !selected[v] && key[v] == Sentinel
    requires forall j :: 0 <= j < n && !selected[j] ==> key[v] <= key[j]
    ensures 0 < |order| < n
    ensures forall x, y :: x in order && 0 <= y < n && y !in order ==> w[x][y] >= Sentinel
  {
    assert v !in order;
    DistinctBelow(order + [v], n) by {
      assert SelectionOrder(order + [v], n);
    }
    forall x, y | x in order && 0 <= y < n && y !in order
      ensures w[x][y] >= Sentinel
    {
      assert !selected[y];
    }
  }

  /** Conversely, once some node is selected and no finite edge leaves the
      selected nodes, every unselected key is the sentinel, so the next
      pick raises the error. */
  lemma PrimCutConverse(w: seq<seq<real>>, n: nat, selected: seq<bool>, key: seq<real>,
                        to: seq<int>, mst: seq<seq<nat>>, order: seq<nat>, v: nat)
    requires PrimInv(w, n, selected, key, to, mst, order)
    requires v < n && !selected[v] && |order| > 0
    requires forall x, y :: x in order && 0 <= y < n && y !in order ==> w[x][y] >= Sentinel
    ensures key[v] == Sentinel
  {
    assert v !in order;
    if to[v] != -1 {
      assert false;
    } else {
      assert order[0] == 0 && v != 0;
    }
  }

  /** Prim's algorithm as the corridor plan runs it. On success every node
      is selected, node 0 first, and mst holds for each later node the one
      earlier node it hangs from, over a lightest edge across the cut. The
      sentinel as the lowest key is the "There is no MST" error, and then
      order is a cut that no finite edge crosses. */
  method Prim(w: seq<seq<real>>, n: nat) returns (r: Result<seq<seq<nat>>, GenError>, order: seq<nat>)
    requires Square(w, n)
    ensures SelectionOrder(order, n)
    ensures r.Success? ==> |order| == n && |r.value| == n
    ensures r.Success? ==> TreeEdges(w, n, r.value, order) && LightEdges(w, n, r.value, order)
    ensures r.Success? && n > 0 ==> order[0] == 0
    ensures r.Failure? ==> r.error == NoMst && 0 < |order| < n
    ensures r.Failure? ==> forall x, y :: x in order && 0 <= y < n && y !in order ==> w[x][y] >= Sentinel
  {
    var selected := seq(n, u => false);
    var key := seq(n, u => if u == 0 then 0.0 else Sentinel);
    var to := seq(n, u => -1);
    var mst: seq<seq<nat>> := seq(n, u => []);
    order := [];
    var i := 0;
    while i < n
      invariant 0 <= i <= n && |order| == i
      invariant PrimInv(w, n, selected, key, to, mst, order)
    {
      SomeUnselected(selected, order, n);
      var found := PickNext(selected, key);
      var v: nat := found;
      if key[v] == Sentinel {
        PrimCut(w, n, selected, key, to, mst, order, v);
        return Failure(NoMst), order;
      }
      var key', to' := Relax(w, n, v, key, to);
      PrimStep(w, n, selected, key, to, mst, order, v, key', to');
      if to[v] != -1 {
        mst := mst[v := mst[v] + [to[v] as nat]];
      }
      selected := selected[v := true];
      key, to := key', to';
      order := order + [v];
      i := i + 1;
    }
    r := Success(mst);
  }

  // ---------------------------------------------------------------------
  // The shape of the tree
  // ---------------------------------------------------------------------

  /** A complete selection order: every node is selected. */
  predicate SpanningTree(w: seq<seq<real>>, n: nat, mst: seq<seq<nat>>, order: seq<nat>) {
    && Square(w, n) && |mst| == n && SelectionOrder(order, n) && |order| == n
    && TreeEdges(w, n, mst, order)
  }

  /** The number of entries in mst, summed over the nodes below m. */
  function EntriesBelow(mst: seq<seq<nat>>, m: nat): nat
    requires m <= |mst|
  {
    if m == 0 then 0 else EntriesBelow(mst, m - 1) + |mst[m - 1]|
  }

  /** Every node but the first selected has exactly one entry. */
  lemma EntryCounts(w: seq<seq<real>>, n: nat, mst: seq<seq<nat>>, order: seq<nat>)
    requires SpanningTree(w, n, mst, order) && n > 0
    ensures forall u :: 0 <= u < n ==> |mst[u]| == (if u == order[0] then 0 else 1)
  {
    DistinctCovers(order, n);
    forall u | 0 <= u < n
      ensures |mst[u]| == (if u == order[0] then 0 else 1)
    {
      var k := IndexOf(order, u);
      if k > 0 {
        assert order[k] != order[0];
      }
    }
  }

  lemma {:induction false} EntriesBelowCount(mst: seq<seq<nat>>, root: nat, m: nat)
    requires m <= |mst|
    requires forall u :: 0 <= u < |mst| ==> |mst[u]| == (if u == root then 0 else 1)
    ensures EntriesBelow(mst, m) == (if root < m then m - 1 else m)
  {
    if m > 0 {
      EntriesBelowCount(mst, root, m - 1);
    }
  }

  /** A spanning tree over n nodes has n - 1 edges. */
  lemma TreeEdgeCount(w: seq<seq<real>>, n: nat, mst: seq<seq<nat>>, order: seq<nat>)
    requires SpanningTree(w, n, mst, order) && n > 0
    ensures EntriesBelow(mst, n) == n - 1
  {
    EntryCounts(w, n, mst, order);
    EntriesBelowCount(mst, order[0], n);
  }

  /** Following the entries from the k-th selected node reaches the first
      selected node, and each step goes to a node selected strictly
      earlier: the positions in the selection order along the way strictly
      decrease, so the recorded edges contain no cycle. */
  function PathToRoot(w: seq<seq<real>>, n: nat, mst: seq<seq<nat>>, order: seq<nat>, k: nat)
    : (ranks: seq<nat>)
    requires Square(w, n) && |mst| == n && SelectionOrder(order, n) && TreeEdges(w, n, mst, order)
    requires k < |order|
    ensures 1 <= |ranks| <= k + 1
    ensures ranks[0] == k && ranks[|ranks| - 1] == 0
    ensures forall i, j :: 0 <= i < j < |ranks| ==> ranks[j] < ranks[i]
    ensures forall i :: 0 <= i < |ranks| - 1 ==>
      |mst[order[ranks[i]]]| == 1 && order[ranks[i + 1]] == mst[order[ranks[i]]][0]
    decreases k
  {
    if k == 0 then [0]
    else
      var p := mst[order[k]][0];
      var m := IndexOf(order[..k], p);
      assert order[m] == p;
      [k] + PathToRoot(w, n, mst, order, m)
  }

  /** The nodes along the path to the root are pairwise different. */
  lemma PathToRootAcyclic(w: seq<seq<real>>, n: nat, mst: seq<seq<nat>>, order: seq<nat>, k: nat)
    requires Square(w, n) && |mst| == n && SelectionOrder(order, n) && TreeEdges(w, n, mst, order)
    requires k < |order|
    ensures var ranks := PathToRoot(w, n, mst, order, k);
            forall i, j :: 0 <= i < j < |ranks| ==> order[ranks[i]] != order[ranks[j]]
  {
  }
}

=== FILE: tilemap.dfy ===
/** The tile map: a width by height grid of cells stored row after row in
    one flat array, 0 meaning open floor, plus the list of blocks added. */
module TileMap {

  /** A grid coordinate. */
  datatype Cell = Cell(x: int, y: int)

  /** An axis-aligned block of cells from its top-left corner tl to its
      bottom-right corner br, both included. */
  datatype Block = Block(tl: Cell, br: Cell)

  /** The Block constructor's centre: the midpoint of the corners, rounded
      down on each axis. The constructor stores it, but genMap never reads
      it, so it is kept here only as a definition of that field. */
  function BlockCenter(b: Block): (c: Cell)
    ensures 2 * c.x <= b.tl.x + b.br.x < 2 * c.x + 2
    ensures 2 * c.y <= b.tl.y + b.br.y < 2 * c.y + 2
  {
    Cell((b.tl.x + b.br.x) / 2, (b.tl.y + b.br.y) / 2)
  }

  datatype Grid = Grid(width: nat, height: nat, arr: seq<int>, blocks: seq<Block>)

  predicate Valid(g: Grid) {
    |g.arr| == g.width * g.height
  }

  predicate InGrid(g: Grid, x: int, y: int) {
    0 <= x < g.width && 0 <= y < g.height
  }

  /** The flat index of cell (x, y): row y starts at y * width. */
  function Index(g: Grid, x: int, y: int): int {
    x + y * g.width
  }

  lemma MulLeft(a: nat, b: nat, c: nat)
    requires a <= b
    ensures a * c <= b * c
  {
  }

  /** The index of a cell of the grid is in range, and different cells
      have different indices. */
  lemma IndexBounds(g: Grid, x: int, y: int)
    requires Valid(g) && InGrid(g, x, y)
    ensures 0 <= Index(g, x, y) < |g.arr|
  {
    MulLeft(y + 1, g.height, g.width);
  }

  lemma IndexInjective(g: Grid, x1: int, y1: int, x2: int, y2: int)
    requires InGrid(g, x1, y1) && InGrid(g, x2, y2)
    requires Index(g, x1, y1) == Index(g, x2, y2)
    ensures x1 == x2 && y1 == y2
  {
    if y1 < y2 {
      MulLeft(y1 + 1, y2, g.width);
    } else if y2 < y1 {
      MulLeft(y2 + 1, y1, g.width);
    }
  }

  /** new Map(width, height): every cell 0, no blocks. */
  function EmptyGrid(width: nat, height: nat): (g: Grid)
    ensures Valid(g) && g.width == width && g.height == height && g.blocks == []
    ensures forall x, y :: InGrid(g, x, y) ==> At(g, x, y) == 0
  {
    var g := Grid(width, height, seq(width * height, i => 0), []);
    assert forall x, y :: InGrid(g, x, y) ==> 0 <= Index(g, x, y) < |g.arr| by {
      forall x, y | InGrid(g, x, y)
        ensures 0 <= Index(g, x, y) < |g.arr|
      {
        IndexBounds(g, x, y);
      }
    }
    g
  }

  /** Map.at. The source has no bounds check; cells outside the grid are
      not part of this model. */
  function At(g: Grid, x: int, y: int): int
    requires Valid(g) && InGrid(g, x, y)
  {
    IndexBounds(g, x, y);
    g.arr[Index(g, x, y)]
  }

  /** Map.update: cell (x, y) becomes v and no other cell changes. */
  function Update(g: Grid, x: int, y: int, v: int): (r: Grid)
    requires Valid(g) && InGrid(g, x, y)
    ensures Valid(r) && r.width == g.width && r.height == g.height && r.blocks == g.blocks
    ensures At(r, x, y) == v
    ensures forall x', y' :: InGrid(g, x', y') && (x', y') != (x, y) ==> At(r, x', y') == At(g, x', y')
  {
    IndexBounds(g, x, y);
    var r := g.(arr := g.arr[Index(g, x, y) := v]);
    UpdateOthers(g, x, y, r);
    r
  }

  lemma UpdateOthers(g: Grid, x: int, y: int, r: Grid)
    requires Valid(g) && InGrid(g, x, y) && Valid(r)
    requires r.width == g.width && r.height == g.height
    requires forall i :: 0 <= i < |g.arr| && i != Index(g, x, y) ==> r.arr[i] == g.arr[i]
    ensures forall x', y' :: InGrid(g, x', y') && (x', y') != (x, y) ==> At(r, x', y') == At(g, x', y')
  {
    forall x', y' | InGrid(g, x', y') && (x', y') != (x, y)
      ensures At(r, x', y') == At(g, x', y')
    {
      IndexBounds(g, x', y');
      if Index(g, x', y') == Index(g, x, y) {
        IndexInjective(g, x', y', x, y);
      }
    }
  }

  predicate InBlock(b: Block, x: int, y: int) {
    b.tl.x <= x <= b.br.x && b.tl.y <= y <= b.br.y
  }

  /** The block covers at least one cell. */
  predicate Paints(b: Block) {
    b.tl.x <= b.br.x && b.tl.y <= b.br.y
  }

  /** A block that covers cells lies inside the grid. */
  predicate Fits(g: Grid, b: Block) {
    Paints(b) ==> InGrid(g, b.tl.x, b.tl.y) && InGrid(g, b.br.x, b.br.y)
  }

  /** The cells of b that come before column i, or in column i before row
      j, are 1; every other cell is as in g0. */
  ghost predicate PaintedBefore(g0: Grid, g: Grid, b: Block, i: int, j: int)
    requires Valid(g0) && Valid(g) && g.width == g0.width && g.height == g0.height
  {
    forall x, y {:trigger At(g, x, y)} :: InGrid(g, x, y) ==>
      At(g, x, y) == (if InBlock(b, x, y) && (x < i || (x == i && y < j)) then 1 else At(g0, x, y))
  }

  /** One pass of the inner loop of Map.addBlock: column i, rows tl.y to
      br.y. */
  method PaintColumn(g0: Grid, g: Grid, b: Block, i: int) returns (r: Grid)
    requires Valid(g0) && Valid(g) && g.width == g0.width && g.height == g0.height
    requires Fits(g, b) && Paints(b) && b.tl.x <= i <= b.br.x
    requires PaintedBefore(g0, g, b, i, b.tl.y)
    ensures Valid(r) && r.width == g.width && r.height == g.height && r.blocks == g.blocks
    ensures PaintedBefore(g0, r, b, i + 1, b.tl.y)
  {
    r := g;
    var j := b.tl.y;
    while j <= b.br.y
      invariant b.tl.y <= j <= b.br.y + 1
      invariant Valid(r) && r.width == g.width && r.height == g.height && r.blocks == g.blocks
      invariant PaintedBefore(g0, r, b, i, j)
    {
      r := Update(r, i, j, 1);
      j := j + 1;
    }
  }

  /** Map.addBlock: the block is appended to the block list once and its
      cells are set to 1; nothing else changes, and a block that covers no
      cell leaves the cells alone. */
  method AddBlock(g: Grid, b: Block) returns (r: Grid)
    requires Valid(g) && Fits(g, b)
    ensures Valid(r) && r.width == g.width && r.height == g.height
    ensures r.blocks == g.blocks + [b]
    ensures forall x, y :: InGrid(r, x, y) ==>
      At(r, x, y) == (if InBlock(b, x, y) then 1 else At(g, x, y))
    ensures !Paints(b) ==> r.arr == g.arr
  {
    r := g.(blocks := g.blocks + [b]);
    if !Paints(b) {
      return;
    }
    var i := b.tl.x;
    while i <= b.br.x
      invariant b.tl.x <= i <= b.br.x + 1
      invariant Valid(r) && r.width == g.width && r.height == g.height
      invariant r.blocks == g.blocks + [b]
      invariant PaintedBefore(g, r, b, i, b.tl.y)
    {
      r := PaintColumn(g, r, b, i);
      i := i + 1;
    }
  }
}

=== FILE: wrappers.dfy ===
/** Failure-compatible result types shared by the pipeline stages. */
module Wrappers {

  datatype Option<+T> = None | Some(value: T)

  datatype Result<+R, +E> = Success(value: R) | Failure(error: E)

  /** The ways a call of genMap can stop without a layout. */
  datatype GenError =
    | LimitBelowCount        // the guard at the top of genMap
    | EmptyRoomList          // deg[0] read from an empty degree list
    | NoConvergence          // the steering loop ran out of fuel
    | TooFewPlaced           // area[i] read past the end of the ranking
    | NoMst                  // Prim found a node with no finite edge
    | OffGrid                // a block reaches past the edge of the map
}
